=== FILE: README.md ===
# fhir-py-types, modelled in Dafny

fhir-py-types generates Python type declarations (TypedDict classes and type
aliases) from a bundle of FHIR StructureDefinition resources. This project
models the core of that generator and proves properties of it:

- `types.dfy` (module `FhirTypes`) holds the shared type model. It has the
  StructureDefinition kinds, the frozen `StructurePropertyType` and
  `StructureDefinition` records, and the insertion-ordered dictionary of
  child definitions.
- `bundle.dfy` (module `BundleReader`) is the reader. It selects the
  StructureDefinition resources of a bundle. For each one it finds the root
  entry of `snapshot.element`, parses types, target profiles and element
  ids, and sorts the other entries by path length. It then hangs each entry
  under the node its dotted path walks to. The reader is a generator, so the
  whole run is a `DefinitionStream`: the trees yielded in order, then the
  exception that stopped it, if any.
- `reconstruct.dfy` (module `TreeReconstruction`) proves what the reader
  builds. Every dictionary has distinct keys. The root node describes the
  root entry. On a well-formed snapshot, each other entry sits at its own
  path with its key, docstring and types, and nothing else is in the tree.
  A snapshot is well-formed here when:
  - its root entry is present and its kind is known;
  - every element's target profiles parse;
  - no two non-root entries have the same full path;
  - every non-root entry's parent path is the root, or the full path of
    another entry with a shorter dotted path.

  Sliced snapshots break the third condition. The children of
  `Patient.identifier:ssn` have paths such as `Patient.identifier.system`,
  which is also the path of the unsliced child. The assignment at
  fhir_py_types/reader/bundle.py:102 then overwrites one child with the
  other, and the model makes no promise about which entry survives.
- `ast.dfy` (module `Codegen`) is the code generator. It covers union
  folding, type annotations (`List_`, `Required_`, target-profile unions),
  attribute names of polymorphic elements, annotated assignments followed by
  docstrings, and `build_ast` over a stream of definitions.
- `text.dfy` (module `Text`) has the Python string operations used:
  `split`, `removesuffix`, `capitalize` and `join`.
- `outcomes.dfy` (module `Outcomes`) has `Option`, `Result` and the Python
  exceptions the core can raise.
- `seqs.dfy` (module `SeqFacts`) has small generic facts about sequences.

The two loops the source writes step by step are methods proved equal to
their specification functions:

- the loop in `read_structure_definition`, with its inner `in_focus`
  descent (`BundleReader.ReadStructureDefinition`);
- the loop in `build_ast`, with the loop that extends a class body
  (`Codegen.BuildAst`, with `Codegen.LowerOne` for the `match` and
  `Codegen.BuildClass` for the class body).

Everything else is pure and is modelled by functions.

A Python `dict` is a sequence of `(key, value)` pairs with distinct keys.
Assigning to a key already present replaces the value in place. A new key is
appended.

## Model

| member | source | states |
|---|---|---|
| FhirTypes.KindFromStr | fhir_py_types/__init__.py:13-26 | A kind comes back only for one of the five kind strings, and its value is that string. Any other string raises the "Unknown StructureDefinition kind" error, and no kind has that value. |
| FhirTypes.KindRoundTrip | fhir_py_types/__init__.py:5-26 | Every kind's enum value parses back to that kind. |
| FhirTypes.IsPolymorphic | fhir_py_types/__init__.py:47-48 | A definition is polymorphic exactly when it has a candidate type after the first one. |
| FhirTypes.Get | fhir_py_types/__init__.py:43 | A lookup in the elements dict finds a value exactly when the key is present, and the value found is stored under that key. |
| FhirTypes.Put | fhir_py_types/__init__.py:43 | Assigning into the elements dict keeps the key order. A new key goes last. |
| FhirTypes.PutKeepsUniqueKeys | fhir_py_types/__init__.py:43 | Assignment keeps the keys of the dict distinct. |
| FhirTypes.GetAfterPut | fhir_py_types/__init__.py:43 | After an assignment the key maps to the new value and every other key keeps its value. |
| FhirTypes.PutAddsOnly | fhir_py_types/__init__.py:43 | An assignment brings in no pair other than the one assigned. |
| Text.Split | fhir_py_types/reader/bundle.py:39 | `str.split` gives at least one piece, no piece holds the separator, and joining the pieces gives back the string. |
| Text.SplitJoin | fhir_py_types/reader/bundle.py:39 | Splitting undoes joining when no piece holds the separator. |
| Text.LastSegment | fhir_py_types/reader/bundle.py:39 | `split(sep)[-1]` has no separator, is a suffix of the input and is preceded by a separator, or is the whole input when there is no separator. |
| Text.RemoveSuffix | fhir_py_types/reader/bundle.py:74 | `removesuffix` strips the suffix exactly when it is present and otherwise changes nothing. |
| Text.Capitalize | fhir_py_types/ast.py:59 | `capitalize` keeps the length, upper-cases the first letter and lower-cases all the others. |
| Text.CapitalizeIdempotent | fhir_py_types/ast.py:59 | Capitalizing twice is the same as capitalizing once. |
| BundleReader.SystemTypeName | fhir_py_types/reader/bundle.py:14-22 | The system type table maps only `System.`-prefixed codes, and only to `str`, `bool` or `int`. |
| BundleReader.SystemTypeNamesAreNotKeys | fhir_py_types/reader/bundle.py:14-22 | No Python type name in the system type table is itself a key of the table. |
| BundleReader.SelectFrom | fhir_py_types/reader/bundle.py:30-35 | Every StructureDefinition resource of the entries is selected and nothing else. |
| BundleReader.SelectFromAppend | fhir_py_types/reader/bundle.py:30-35 | Selection keeps bundle order: selecting from two runs of entries concatenates the selections. |
| BundleReader.SelectStructureDefinitionResources | fhir_py_types/reader/bundle.py:30-35 | A bundle without `entry` raises KeyError('entry'). Otherwise the resources selected are exactly those whose `resourceType` is StructureDefinition, in the order `SelectFrom` keeps. |
| BundleReader.ParseTypeIdentifier | fhir_py_types/reader/bundle.py:38-40 | The identifier is the last '/'-segment of the code, mapped through the system type table. It has no '/' and is never itself a table key. |
| BundleReader.ParseTypeIdentifierIdempotent | fhir_py_types/reader/bundle.py:38-40 | Reading an identifier that was already read gives it back unchanged. |
| BundleReader.ProfileError | fhir_py_types/reader/bundle.py:44-46 | A rejected URL without '/' fails to unpack into two names: "not enough values to unpack (expected 2, got 1)". A rejected URL with '/' raises the unknown-target-profile ValueError for the whole list. |
| BundleReader.ParseProfiles | fhir_py_types/reader/bundle.py:43-47 | Scanning the URLs in order, it succeeds exactly when each one's last-but-one segment is StructureDefinition, and gives each URL's last segment. Otherwise the error is the one the first rejected URL raises. |
| BundleReader.ParseTargetProfile | fhir_py_types/reader/bundle.py:43-47 | It succeeds exactly when every URL's last-but-one segment is StructureDefinition, giving each URL's last segment in order. |
| BundleReader.ParseTargetProfileError | fhir_py_types/reader/bundle.py:43-47 | A failure is the error of the first rejected URL. It is the unpacking error (expected 2, got 1) exactly when a URL without '/' comes before any URL whose type is not StructureDefinition, and otherwise the unknown-target-profile ValueError for the whole list. |
| BundleReader.ProfileUrlAccepted | fhir_py_types/reader/bundle.py:43-47 | A URL ending in `StructureDefinition/<name>` is accepted and yields `name`. |
| BundleReader.ProfileUrlShape | fhir_py_types/reader/bundle.py:43-47 | Conversely, every accepted URL ends in `StructureDefinition/<name>`, where `name` is the profile it yields. |
| BundleReader.ParseTypes | fhir_py_types/reader/bundle.py:54-62 | There is one property type per type entry, in order, with the parsed code and profiles. `required` is `min != 0`, `isarray` is `max != "1"` and `literal` is false. Otherwise some entry's profile error is raised. |
| BundleReader.ParseTypesFirstFailure | fhir_py_types/reader/bundle.py:54-62 | The error raised is that of the first type entry whose profiles fail; all entries before it parse. |
| BundleReader.ParseElementType | fhir_py_types/reader/bundle.py:50-64 | The result is None exactly when the element has no `type` key. Otherwise the types are those ParseTypes gives for the entries: one per entry, with its code, its profile names and the element's cardinality. It fails exactly when some entry's profiles fail, and then raises the ValueError that ParseTypes raises, which is that of the first failing entry. |
| BundleReader.ParseElementId | fhir_py_types/reader/bundle.py:67-74 | The key is the id's last '.'-component without a trailing `[x]`. It has no '.' and is what the id ends with. |
| BundleReader.ChoiceMarkerSurvivesSplit | fhir_py_types/reader/bundle.py:68-74 | The last component ends with `[x]` exactly when the whole id does. |
| BundleReader.FindRoot | fhir_py_types/reader/bundle.py:79 | It returns an entry whose id is the resource type and before which no entry has that id, so the first match. When there is none it raises StopIteration. |
| BundleReader.WithoutId | fhir_py_types/reader/bundle.py:80 | It keeps every entry except those with the root's id. |
| BundleReader.WithoutIdAppend | fhir_py_types/reader/bundle.py:80 | The filter keeps entry order: filtering two runs of entries concatenates the results. |
| BundleReader.SortByPathLength | fhir_py_types/reader/bundle.py:90 | The result is a permutation of the entries, in ascending path-string length. |
| BundleReader.SortIsStable | fhir_py_types/reader/bundle.py:90 | The sort is stable: entries with paths of equal length keep their order. |
| BundleReader.Walk | fhir_py_types/reader/bundle.py:100 | The keys walked are the path's components between the first and the last, none holding '.'. Joining the first component, the walk and the last component gives back the path, and a path without '.' walks nowhere. |
| BundleReader.InsertAt | fhir_py_types/reader/bundle.py:99-102 | The walk down `in_focus` succeeds exactly when every key on it exists, and otherwise raises KeyError for a key of the walk. The top node keeps its own data; `InsertAtElsewhere` states what happens to the other nodes. |
| BundleReader.FindSnoc | fhir_py_types/reader/bundle.py:100-101 | Descending one more key reaches that key's child of the node reached so far. |
| BundleReader.InsertAtMissing | fhir_py_types/reader/bundle.py:100-101 | The KeyError raised names the first key of the walk that is missing. |
| BundleReader.InsertElement | fhir_py_types/reader/bundle.py:91-102 | One iteration fails exactly when the element's profiles fail or a key of its walk is missing. A profile failure raises the same error as ParseElementType. A missing key raises KeyError for a key of the walk. The root keeps its own data. |
| BundleReader.InsertAll | fhir_py_types/reader/bundle.py:90-102 | The loop keeps the root's own data. |
| BundleReader.InsertAllAppend | fhir_py_types/reader/bundle.py:90-102 | Running the loop over two runs of elements is running it over the first and continuing from its tree over the second, unless the first raised. |
| BundleReader.ReadSpec | fhir_py_types/reader/bundle.py:77-104 | A tree read from a resource is rooted at the resource's type and carries its kind. |
| BundleReader.ReadStructureDefinition | fhir_py_types/reader/bundle.py:77-104 | The loop gives the reader's result. A missing `snapshot` raises KeyError('snapshot'), a missing root raises StopIteration, an unknown kind raises the unknown-kind error, a root entry whose profiles fail raises that ParseElementType error, and a returned tree is rooted at the resource type with its kind. |
| BundleReader.Reraised | fhir_py_types/reader/bundle.py:112 | A StopIteration that leaves a generator becomes the RuntimeError "generator raised StopIteration". Every other exception passes unchanged. |
| BundleReader.ReadEach | fhir_py_types/reader/bundle.py:112 | The generator yields the tree of each resource in order. It stops at the first resource that raises, with that exception as re-raised by the generator, and otherwise reaches the end. |
| BundleReader.ReadStructureDefinitions | fhir_py_types/reader/bundle.py:107-112 | A missing `entry` raises at once. Otherwise the result is the stream over the selected resources. |
| BundleReader.ReadEachRoots | fhir_py_types/reader/bundle.py:107-112 | Each yielded tree is rooted at its resource's type and has that resource's kind. |
| TreeReconstruction.FindPrefixClosed | fhir_py_types/reader/bundle.py:99-102 | Every prefix of a path that exists in the tree also exists. |
| TreeReconstruction.InsertAtBelow | fhir_py_types/reader/bundle.py:99-102 | After the assignment, the subtree at the walk plus the key is the child's. |
| TreeReconstruction.InsertAtElsewhere | fhir_py_types/reader/bundle.py:99-102 | After the assignment, every path not below the new key exists exactly when it did before and leads to the same data. |
| TreeReconstruction.InsertAtKeepsWellFormed | fhir_py_types/reader/bundle.py:99-102 | The assignment keeps every dictionary in the tree free of duplicate keys. |
| TreeReconstruction.ReadBuildsDictionaries | fhir_py_types/reader/bundle.py:77-104 | Every tree the reader returns has distinct keys in every dictionary. |
| TreeReconstruction.InsertNewLeaf | fhir_py_types/reader/bundle.py:99-102 | Hanging a childless node under an existing parent at a new key adds exactly that path and changes no other node's data. |
| TreeReconstruction.InsertElementStep | fhir_py_types/reader/bundle.py:90-102 | One iteration adds exactly the element's path, with the element's key, docstring and types, when its parent is already in the tree. |
| TreeReconstruction.InsertAllBuilds | fhir_py_types/reader/bundle.py:90-102 | The loop succeeds and the tree holds exactly the elements inserted, provided their paths are distinct and parents come first. |
| TreeReconstruction.SortPutsParentsFirst | fhir_py_types/reader/bundle.py:90 | Sorting by path length puts every parent before its children when each parent's path string is shorter. |
| TreeReconstruction.ReadRebuildsTree | fhir_py_types/reader/bundle.py:77-104 | On a well-formed snapshot the reader succeeds. A snapshot is well-formed when the root is present, the kind is known, every profile parses, full paths are distinct and parents are closed. The root node describes the root entry. Every other entry sits at its own path with its key, docstring and types, and no other path exists. |
| TreeReconstruction.PermutationKeepsDistinct | fhir_py_types/reader/bundle.py:90 | Reordering the entries does not make two of them share a path. |
| Codegen.FoldIntoUnion | fhir_py_types/ast.py:25-29 | One node folds to itself. Several fold into a left-nested union whose last member is the last node. |
| Codegen.FlattenFold | fhir_py_types/ast.py:25-29 | Flattening the folded union gives back the nodes in order. |
| Codegen.MakeTypeAnnotation | fhir_py_types/ast.py:32-51 | The annotation is a name or a subscript. It can be read back to the type's code, its target profiles, whether it is an array and, for class attributes, whether it is required. |
| Codegen.AnnotationInjective | fhir_py_types/ast.py:32-51 | Two types with the same annotation agree on everything an annotation shows. |
| Codegen.MakePropertyIdentifier | fhir_py_types/ast.py:54-59 | The attribute name starts with the element id. It is the id alone unless the element has several types, in which case the capitalized type code follows. |
| Codegen.PropertyIdentifierMarksPolymorphism | fhir_py_types/ast.py:54-59 | The attribute name differs from the id exactly when the element is polymorphic (`is_polymorphic`) and the code is not empty. |
| Codegen.PropertyIdentifiersDistinct | fhir_py_types/ast.py:54-59 | The types of a polymorphic element with different capitalized codes get different attribute names. |
| Codegen.MakeAssignmentNode | fhir_py_types/ast.py:62-71 | A class attribute becomes an annotated assignment and a type alias becomes a plain assignment. |
| Codegen.AssignmentRoundTrip | fhir_py_types/ast.py:62-71 | The name, annotation and form can be read back from the statement. |
| Codegen.AnnotatedIdentifiers | fhir_py_types/ast.py:77-87 | There is one name and annotation per candidate type, in order, or the id annotated `Any` when the type list is missing or empty. |
| Codegen.MakeAnnotatedNode | fhir_py_types/ast.py:74-95 | Each name and annotation becomes an assignment followed by the element's docstring. That is two statements per attribute and no class. |
| Codegen.ClassProperties | fhir_py_types/ast.py:114-117 | A class body gets two statements per attribute of its children, and only annotated assignments and docstrings. |
| Codegen.ClassFor | fhir_py_types/ast.py:106-117 | The class is named after the type, derives from TypedDict with `total=False`, and has no decorators. Its body is the docstring, then the attribute statements of its children in dictionary order: two per attribute, each an annotated assignment or a docstring. |
| Codegen.ClassPropertiesAppend | fhir_py_types/ast.py:114-117 | The attributes of two runs of children are those of the first run followed by those of the second. |
| Codegen.ClassPropertiesAt | fhir_py_types/ast.py:114-117 | Statement `k` of child `j`'s `make_annotated_node` output is the class attribute at position `k` after all statements of the children before `j`. |
| Codegen.LowerDefinition | fhir_py_types/ast.py:104-134 | A resource or complex type becomes its class. A primitive type becomes the alias statements of its `value` element's types under the type's id, two per type. A `value` element with no type list, or an empty one, gives two statements in total: the `Any` alias and its docstring. A primitive type whose `value` element is missing raises KeyError('value'). Other kinds produce nothing. |
| Codegen.LowerAll | fhir_py_types/ast.py:103-127 | The only exception lowering raises is KeyError('value'). |
| Codegen.LowerAllStopsAtError | fhir_py_types/ast.py:103-127 | Once a definition raises, the later definitions change nothing. |
| Codegen.BuildClass | fhir_py_types/ast.py:106-117 | The loop gives the class: the TypedDict base, the docstring, then the attributes of each child in dictionary order, with `total=False`. |
| Codegen.BuildAstSpec | fhir_py_types/ast.py:98-136 | The build succeeds exactly when lowering succeeds and the input did not raise, and then gives the lowered statements. A lowering error comes before the input's own exception. |
| Codegen.LowerOne | fhir_py_types/ast.py:104-134 | One pass of the loop's `match` gives exactly what the definition lowers to. |
| Codegen.BuildAst | fhir_py_types/ast.py:98-136 | The loop gives the statements of every definition, in order. It stops at the first exception, whether raised by lowering or by the input. |
| Codegen.LowerAllFails | fhir_py_types/ast.py:103-127 | Lowering fails exactly when some primitive type has no `value` element, and then raises KeyError('value'). Otherwise it emits the sum of each definition's statement count. |
| Codegen.LowerAllClassNames | fhir_py_types/ast.py:103-119 | The module declares one class per resource or complex type, in input order, named after the type. |
| Codegen.BuildAstOutcome | fhir_py_types/ast.py:98-136 | The build fails exactly when a primitive type lacks `value` or the input raised, and the lowering error comes first. A successful build has the expected statement count and class names. |

## Left out

- I/O is not part of this model. That covers `load_from_bundle` (opening and decoding the JSON file), `cli.py`, which writes the generated module to a file, and `main.py`, which reads `./patient.edn` and prints the generated code.
- Logging is left out: the warning for an element id that is a Python keyword, and the warning for a skipped definition kind.
- Missing JSON keys are modelled only for `entry`, `snapshot` and the `value` element. Every other key the reader reads (`element` of the snapshot, whose absence raises KeyError('element') at fhir_py_types/reader/bundle.py:78, and `resourceType`, `kind`, `type`, `id`, `path`, `min`, `max`, `definition`, `code`) is assumed present, because the datatypes give these fields no absent case.
- The reader's trees are values. The source mutates `in_focus.elements` in place, which reaches the same tree because no node is shared between two parents. Aliasing is therefore not modelled.
- The class body is built as a value. The source appends to `klass.body` after creating the class, which gives the same statements.
- Strings are sequences of characters. `capitalize` is modelled for ASCII letters only; Unicode case mappings are not.
- Codegen.FoldIntoUnion: requires a non-empty list. `functools.reduce` without an initial value raises TypeError on an empty one, and the only caller never passes one.
- FhirTypes.IsPolymorphic: requires a type list. `len(None)` raises TypeError in the source.
- BundleReader.InsertAt: its contract does not give the key order of the new tree. The lemmas in `TreeReconstruction` state what the assignment changes instead.
- Codegen.MakeTypeAnnotation: the round trip is not stated for type codes spelled `Required_` or `List_`. Such a code is spelled like a wrapper, so the annotation is ambiguous: `List_[X]` is both an array of `X` and a type `List_` with target profile `X`.
- The code differs from the StructureDefinition semantics in a few places, and the model follows the code:
  - elements are ordered by the length of their path string, not by depth;
  - the differential view is not merged in;
  - `contentReference`, slicing and discriminators are not interpreted.
- Several tests in the repository expect output that this `ast.py` does not produce. These are a functional `TypedDict` call for keyword-named elements, nested classes for compound definitions, and union classes for polymorphic elements. `test_generates_class_for_flat_definition` (tests/test_ast.py:26-71) and `test_generates_annotations_according_to_structure_type` (tests/test_ast.py:231-308) expect type names as string leaves (`ast.Str("str")`), while `ast.py` builds them as `ast.Name` (fhir_py_types/ast.py:43). `test_generates_alias_for_primitive_kind_definition` (tests/test_ast.py:124-150) also expects an alias for a primitive type with no elements, where `ast.py` raises KeyError('value'). The model follows `ast.py`.

=== FILE: ast.dfy ===
/**
 * The code generator (fhir_py_types/ast.py): turns the definition trees into
 * Python syntax trees. Resources and complex types become TypedDict classes
 * with one annotated attribute per candidate type of each child; primitive
 * types become module-level type aliases; every statement is followed by the
 * docstring it documents.
 *
 * Only the syntax nodes the generator builds are modelled. `ast.BinOp` is
 * always built with the `|` operator, so the operator is left implicit, and
 * `ast.Expr` (an expression used as a statement) is called ExprStmt here.
 */
module Codegen {
  import opened Outcomes
  import opened Text
  import opened FhirTypes
  import opened SeqFacts

  datatype Expr =
    | Name(id: string)
    | Subscript(value: Expr, slice: Expr)
    | BinOp(left: Expr, right: Expr)
    | Str(s: string)

  datatype Keyword = Keyword(arg: string, value: Expr)

  datatype Stmt =
    | AnnAssign(target: Expr, annotation: Expr, simple: int)
    | Assign(targets: seq<Expr>, value: Expr)
    | ExprStmt(value: Expr)
    | ClassDef(name: string, bases: seq<Expr>, body: seq<Stmt>, decoratorList: seq<Expr>, keywords: seq<Keyword>)

  /** Whether an annotation types a class attribute or a module-level alias. */
  datatype AnnotationForm = Property | TypeAlias

  // ---- unions ----

  /**
   * fold_into_union_node: `functools.reduce` without an initial value, so the
   * union nests to the left: `((a | b) | c)`.
   */
  function FoldIntoUnion(nodes: seq<Expr>): (r: Expr)
    requires |nodes| > 0
    ensures |nodes| == 1 ==> r == nodes[0]
    ensures |nodes| > 1 ==> r.BinOp? && r.right == nodes[|nodes| - 1]
    decreases |nodes|
  {
    if |nodes| == 1 then nodes[0]
    else BinOp(FoldIntoUnion(nodes[..|nodes| - 1]), nodes[|nodes| - 1])
  }

  /** The members of a left-nested union, in order. */
  function Flatten(e: Expr): (r: seq<Expr>)
    ensures |r| >= 1 && !r[0].BinOp?
  {
    match e
    case BinOp(left, right) => Flatten(left) + [right]
    case _ => [e]
  }

  /** Folding and flattening are inverse: the union lists its members in order. */
  lemma {:induction false} FlattenFold(nodes: seq<Expr>)
    requires |nodes| > 0 && !nodes[0].BinOp?
    ensures Flatten(FoldIntoUnion(nodes)) == nodes
    decreases |nodes|
  {
    if |nodes| > 1 {
      var init := nodes[..|nodes| - 1];
      FlattenFold(init);
      assert init + [nodes[|nodes| - 1]] == nodes;
    }
  }

  function Names(ns: seq<string>): (r: seq<Expr>)
    ensures |r| == |ns|
    ensures forall i :: 0 <= i < |ns| ==> r[i] == Name(ns[i])
  {
    seq(|ns|, i requires 0 <= i < |ns| => Name(ns[i]))
  }

  /** The identifiers of a sequence of names, if every member is a name. */
  function NamesOf(es: seq<Expr>): (r: Option<seq<string>>)
    ensures r.Some? ==> Names(r.value) == es
  {
    if es == [] then Some([])
    else if !es[0].Name? then None
    else match NamesOf(es[1..])
      case None => None
      case Some(rest) => Some([es[0].id] + rest)
  }

  lemma {:induction false} NamesOfNames(ns: seq<string>)
    ensures NamesOf(Names(ns)) == Some(ns)
  {
    if ns != [] {
      var es := Names(ns);
      NamesOfNames(ns[1..]);
      assert es[0] == Name(ns[0]);
      assert es[1..] == Names(ns[1..]);
      assert [ns[0]] + ns[1..] == ns;
    }
  }

  // ---- annotations ----

  /**
   * make_type_annotation: the type's name, subscripted with the union of its
   * target profiles when it has any, wrapped in `List_[...]` for arrays and,
   * for a class attribute of a required element, in `Required_[...]`.
   *
   * Annotations lose nothing but the literal flag and the difference between
   * no profile list and an empty one: reading one back gives the type's
   * name, flags and profiles. A type code spelled `Required_` or `List_`,
   * like a wrapper, makes the annotation ambiguous (`List_[X]` could be an
   * array of X or a type `List_` with profile X), so the round trip is
   * stated for the other codes.
   */
  function MakeTypeAnnotation(t: PropertyType, form: AnnotationForm): (r: Expr)
    ensures r.Name? || r.Subscript?
    ensures t.code != "Required_" && t.code != "List_" ==> ReadAnnotation(r) == Some(Canonical(t, form))
  {
    var base := ProfiledName(t);
    var listed := if t.isarray then Subscript(Name("List_"), base) else base;
    if t.required && form == Property then Subscript(Name("Required_"), listed) else listed
  }

  /** The type's name, subscripted with the union of its target profiles when it has any. */
  function ProfiledName(t: PropertyType): (r: Expr)
    ensures t.targetProfile.Some? && |t.targetProfile.value| > 0 ==>
              r.Subscript? && r.value == Name(t.code) && NamesOf(Flatten(r.slice)) == t.targetProfile
    ensures !(t.targetProfile.Some? && |t.targetProfile.value| > 0) ==> r == Name(t.code)
  {
    if t.targetProfile.Some? && |t.targetProfile.value| > 0 then
      var ns := t.targetProfile.value;
      FlattenFold(Names(ns));
      NamesOfNames(ns);
      Subscript(Name(t.code), FoldIntoUnion(Names(ns)))
    else Name(t.code)
  }

  /**
   * What an annotation says about a type: its name, whether it is required
   * and an array, and its target profiles (None when there are none). The
   * literal flag never reaches the annotation.
   */
  function Canonical(t: PropertyType, form: AnnotationForm): PropertyType {
    PropertyType(
      t.code,
      t.required && form == Property,
      t.isarray,
      false,
      if t.targetProfile.Some? && |t.targetProfile.value| > 0 then t.targetProfile else None)
  }

  /** `wrapper[inner]` gives (true, inner); anything else is returned unwrapped. */
  function Unwrap(e: Expr, wrapper: string): (bool, Expr) {
    if e.Subscript? && e.value == Name(wrapper) then (true, e.slice) else (false, e)
  }

  /** Reads a type back from an annotation built by MakeTypeAnnotation. */
  function ReadAnnotation(e: Expr): Option<PropertyType> {
    var (required, e1) := Unwrap(e, "Required_");
    var (isarray, e2) := Unwrap(e1, "List_");
    match e2
    case Name(code) => Some(PropertyType(code, required, isarray, false, None))
    case Subscript(Name(code), union) =>
      (match NamesOf(Flatten(union))
       case None => None
       case Some(ns) => Some(PropertyType(code, required, isarray, false, Some(ns))))
    case _ => None
  }

  /** Two types get the same annotation only when they agree on everything the annotation shows. */
  lemma AnnotationInjective(t1: PropertyType, t2: PropertyType, form: AnnotationForm)
    requires t1.code != "Required_" && t1.code != "List_"
    requires t2.code != "Required_" && t2.code != "List_"
    requires MakeTypeAnnotation(t1, form) == MakeTypeAnnotation(t2, form)
    ensures Canonical(t1, form) == Canonical(t2, form)
  {
  }

  // ---- identifiers and assignments ----

  /** The number of candidate types, with a missing list counted as empty (`len(type or [])`). */
  function TypeCount(d: Definition): nat {
    |d.types.GetOr([])|
  }

  /**
   * make_property_identifier: a polymorphic element gets one attribute per
   * type, named by the element's id followed by the capitalized type code.
   */
  function MakePropertyIdentifier(d: Definition, t: PropertyType): (r: string)
    ensures |d.id| <= |r| && r[..|d.id|] == d.id
    ensures TypeCount(d) <= 1 ==> r == d.id
    ensures TypeCount(d) > 1 ==> r[|d.id|..] == Capitalize(t.code)
  {
    if TypeCount(d) > 1 then
      assert (d.id + Capitalize(t.code))[..|d.id|] == d.id;
      d.id + Capitalize(t.code)
    else d.id
  }

  /**
   * The attribute name differs from the element id exactly when the element
   * is polymorphic (is_polymorphic) and the type code is not empty.
   */
  lemma PropertyIdentifierMarksPolymorphism(d: Definition, t: PropertyType)
    requires d.types.Some?
    ensures MakePropertyIdentifier(d, t) != d.id <==> IsPolymorphic(d) && t.code != []
  {
    if IsPolymorphic(d) {
      assert |MakePropertyIdentifier(d, t)| == |d.id| + |t.code|;
    }
  }

  /** The attributes of one polymorphic element differ when their capitalized codes differ. */
  lemma PropertyIdentifiersDistinct(d: Definition, t1: PropertyType, t2: PropertyType)
    requires TypeCount(d) > 1
    requires Capitalize(t1.code) != Capitalize(t2.code)
    ensures MakePropertyIdentifier(d, t1) != MakePropertyIdentifier(d, t2)
  {
  }

  /** make_assignment_node: an annotated attribute, or an alias assignment. */
  function MakeAssignmentNode(identifier: string, annotation: Expr, form: AnnotationForm): (r: Stmt)
    ensures r.AnnAssign? <==> form == Property
    ensures r.Assign? <==> form == TypeAlias
  {
    match form
    case Property => AnnAssign(Name(identifier), annotation, 1)
    case TypeAlias => Assign([Name(identifier)], annotation)
  }

  /** The name, annotation and form an assignment statement was built from. */
  function ReadAssignment(s: Stmt): Option<(string, Expr, AnnotationForm)> {
    match s
    case AnnAssign(Name(identifier), annotation, 1) => Some((identifier, annotation, Property))
    case Assign(targets, value) =>
      if |targets| == 1 && targets[0].Name? then Some((targets[0].id, value, TypeAlias)) else None
    case _ => None
  }

  lemma AssignmentRoundTrip(identifier: string, annotation: Expr, form: AnnotationForm)
    ensures ReadAssignment(MakeAssignmentNode(identifier, annotation, form)) == Some((identifier, annotation, form))
  {
  }

  // ---- annotated nodes ----

  /** How many attributes an element yields: one per candidate type, or a single `Any` one. */
  function PropertyCount(d: Definition): nat {
    if TypeCount(d) > 0 then TypeCount(d) else 1
  }

  /**
   * The (identifier, annotation) pairs of make_annotated_node: one per
   * candidate type, or the element id with `Any` when there is no type list
   * or it is empty.
   */
  function AnnotatedIdentifiers(d: Definition, form: AnnotationForm): (r: seq<(string, Expr)>)
    ensures |r| == PropertyCount(d)
    ensures TypeCount(d) == 0 ==> r == [(d.id, Name("Any"))]
    ensures TypeCount(d) > 0 ==>
              forall i :: 0 <= i < |r| ==>
                r[i] == (MakePropertyIdentifier(d, d.types.value[i]), MakeTypeAnnotation(d.types.value[i], form))
  {
    if TypeCount(d) > 0 then
      var ts := d.types.value;
      seq(|ts|, i requires 0 <= i < |ts| => (MakePropertyIdentifier(d, ts[i]), MakeTypeAnnotation(ts[i], form)))
    else [(d.id, Name("Any"))]
  }

  /**
   * make_annotated_node: for each attribute of the element, its assignment
   * and then the element's docstring; no class is nested.
   */
  function MakeAnnotatedNode(d: Definition, form: AnnotationForm): (r: seq<Stmt>)
    ensures |r| == 2 * PropertyCount(d)
    ensures forall k :: 0 <= k < |r| ==> !r[k].ClassDef?
    ensures form == Property ==> forall k :: 0 <= k < |r| ==> r[k].AnnAssign? || r[k].ExprStmt?
    ensures forall k :: 0 <= k < |r| && k % 2 == 1 ==> r[k] == ExprStmt(Str(d.docstring))
    ensures forall k :: 0 <= k < |r| && k % 2 == 0 ==>
              && (r[k].AnnAssign? <==> form == Property)
              && ReadAssignment(r[k]) == Some((AnnotatedIdentifiers(d, form)[k / 2].0, AnnotatedIdentifiers(d, form)[k / 2].1, form))
  {
    var pairs := AnnotatedIdentifiers(d, form);
    seq(2 * |pairs|, k requires 0 <= k < 2 * |pairs| =>
      if k % 2 == 0 then MakeAssignmentNode(pairs[k / 2].0, pairs[k / 2].1, form)
      else ExprStmt(Str(d.docstring)))
  }

  // ---- lowering one definition ----

  predicate IsClassKind(d: Definition) {
    d.kind == Some(Resource) || d.kind == Some(Complex)
  }

  /** A primitive type whose tree has no "value" element: build_ast raises KeyError. */
  predicate MissingValue(d: Definition) {
    d.kind == Some(Primitive) && Get(d.elements, "value").None?
  }

  /** How many attributes the children of a node yield together. */
  function AttributeCount(es: seq<(string, Definition)>): nat
    decreases |es|
  {
    if es == [] then 0 else AttributeCount(es[..|es| - 1]) + PropertyCount(es[|es| - 1].1)
  }

  /**
   * The attributes of a class, child by child in dictionary order: an
   * annotated attribute and a docstring for each candidate type of each
   * child, and nothing else.
   */
  function ClassProperties(es: seq<(string, Definition)>): (r: seq<Stmt>)
    ensures |r| == 2 * AttributeCount(es)
    ensures forall k :: 0 <= k < |r| ==> r[k].AnnAssign? || r[k].ExprStmt?
    decreases |es|
  {
    if es == [] then []
    else ClassProperties(es[..|es| - 1]) + MakeAnnotatedNode(es[|es| - 1].1, Property)
  }

  lemma ClassPropertiesSnoc(es: seq<(string, Definition)>, j: nat)
    requires j < |es|
    ensures ClassProperties(es[..j + 1]) == ClassProperties(es[..j]) + MakeAnnotatedNode(es[j].1, Property)
  {
    TakeSnoc(es, j);
  }

  /** The make_annotated_node statements of one child. */
  function PropertyBlock(e: (string, Definition)): (r: seq<Stmt>)
    ensures r == MakeAnnotatedNode(e.1, Property)
  {
    MakeAnnotatedNode(e.1, Property)
  }

  /** The attributes of a class are its children's blocks laid end to end. */
  lemma {:induction false} ClassPropertiesBlocks(es: seq<(string, Definition)>)
    ensures ClassProperties(es) == ConcatMap(PropertyBlock, es)
    decreases |es|
  {
    if es != [] {
      ClassPropertiesBlocks(es[..|es| - 1]);
    }
  }

  /** The attributes of two runs of children are those of the first run, then those of the second. */
  lemma ClassPropertiesAppend(a: seq<(string, Definition)>, b: seq<(string, Definition)>)
    ensures ClassProperties(a + b) == ClassProperties(a) + ClassProperties(b)
  {
    ClassPropertiesBlocks(a + b);
    ClassPropertiesBlocks(a);
    ClassPropertiesBlocks(b);
    ConcatMapAppend(PropertyBlock, a, b);
  }

  /**
   * Child `j` contributes its own make_annotated_node statements, in order,
   * right after those of the children before it.
   */
  lemma ClassPropertiesAt(es: seq<(string, Definition)>, j: nat, k: nat)
    requires j < |es| && k < 2 * PropertyCount(es[j].1)
    ensures |ClassProperties(es[..j])| + k < |ClassProperties(es)|
    ensures ClassProperties(es)[|ClassProperties(es[..j])| + k] == MakeAnnotatedNode(es[j].1, Property)[k]
  {
    assert es == es[..j + 1] + es[j + 1..];
    ClassPropertiesAppend(es[..j + 1], es[j + 1..]);
    ClassPropertiesSnoc(es, j);
    IndexMiddle(ClassProperties(es), ClassProperties(es[..j]), MakeAnnotatedNode(es[j].1, Property),
                ClassProperties(es[j + 1..]), k);
  }

  /**
   * The TypedDict class for a resource or complex type, declared with
   * `total=False`: its docstring, then an annotated attribute and its
   * docstring for each candidate type of each child, and no nested class.
   */
  function ClassFor(d: Definition): (r: Stmt)
    ensures r.ClassDef? && r.name == d.id && r.bases == [Name("TypedDict")]
    ensures r.keywords == [Keyword("total", Name("False"))] && r.decoratorList == []
    ensures |r.body| == 1 + 2 * AttributeCount(d.elements) && r.body[0] == ExprStmt(Str(d.docstring))
    ensures r.body == [ExprStmt(Str(d.docstring))] + ClassProperties(d.elements)
    ensures forall k :: 0 <= k < |r.body| ==> r.body[k].AnnAssign? || r.body[k].ExprStmt?
  {
    ClassDef(
      d.id,
      [Name("TypedDict")],
      [ExprStmt(Str(d.docstring))] + ClassProperties(d.elements),
      [],
      [Keyword("total", Name("False"))])
  }

  /** The statements build_ast emits for one definition, by kind. */
  function LowerDefinition(d: Definition): (r: Result<seq<Stmt>>)
    ensures r.Err? <==> MissingValue(d)
    ensures r.Err? ==> r.error == KeyError("value")
    ensures r.Ok? && IsClassKind(d) ==> |r.value| == 1 && r.value[0].ClassDef? && r.value[0].name == d.id
    ensures r.Ok? && IsClassKind(d) ==> r.value == [ClassFor(d)]
    ensures r.Ok? && d.kind == Some(Primitive) ==>
              r.value == MakeAnnotatedNode(d.(types := Get(d.elements, "value").value.types), TypeAlias)
    ensures r.Ok? && d.kind == Some(Primitive) ==>
              |r.value| == 2 * PropertyCount(Get(d.elements, "value").value)
    ensures r.Ok? && !IsClassKind(d) && d.kind != Some(Primitive) ==> r.value == []
  {
    match d.kind
    case Some(Resource) => Ok([ClassFor(d)])
    case Some(Complex) => Ok([ClassFor(d)])
    case Some(Primitive) =>
      (match Get(d.elements, "value")
       case None => Err(KeyError("value"))
       case Some(v) => Ok(MakeAnnotatedNode(d.(types := v.types), TypeAlias)))
    case _ => Ok([])
  }

  // ---- build_ast ----

  /** The loop of build_ast over the definitions, stopping at the first exception. */
  function LowerAll(defs: seq<Definition>): (r: Result<seq<Stmt>>)
    ensures r.Err? ==> r.error == KeyError("value")
    decreases |defs|
  {
    if defs == [] then Ok([])
    else
      var before :- LowerAll(defs[..|defs| - 1]);
      var last :- LowerDefinition(defs[|defs| - 1]);
      Ok(before + last)
  }

  /** One more definition: lowered after the ones before it. */
  lemma LowerAllSnoc(defs: seq<Definition>, i: nat)
    requires i < |defs|
    ensures LowerAll(defs[..i + 1]) ==
              match LowerAll(defs[..i])
              case Err(e) => Err(e)
              case Ok(before) =>
                (match LowerDefinition(defs[i])
                 case Err(e) => Err(e)
                 case Ok(last) => Ok(before + last))
  {
    assert defs[..i + 1][..i] == defs[..i];
  }

  /** Once the loop has raised, the later definitions change nothing. */
  lemma {:induction false} LowerAllStopsAtError(defs: seq<Definition>, n: nat)
    requires n <= |defs| && LowerAll(defs[..n]).Err?
    ensures LowerAll(defs) == LowerAll(defs[..n])
    decreases |defs|
  {
    if n < |defs| {
      var init := defs[..|defs| - 1];
      assert init[..n] == defs[..n];
      LowerAllStopsAtError(init, n);
    } else {
      assert defs[..n] == defs;
    }
  }

  /**
   * build_ast as a function of what its input generator does: every
   * definition yielded is lowered in turn, and the generator's own
   * exception, if any, arrives only after all of them.
   */
  function BuildAstSpec(input: DefinitionStream): (r: Result<seq<Stmt>>)
    ensures r.Ok? <==> LowerAll(input.items).Ok? && input.failure.None?
    ensures r.Ok? ==> r.value == LowerAll(input.items).value
    ensures LowerAll(input.items).Err? ==> r == LowerAll(input.items)
    ensures LowerAll(input.items).Ok? && input.failure.Some? ==> r == Err(input.failure.value)
  {
    var out :- LowerAll(input.items);
    match input.failure
    case Some(e) => Err(e)
    case None => Ok(out)
  }

  /** The class statement build_ast assembles for a resource or complex type. */
  method BuildClass(definition: Definition) returns (klass: Stmt)
    ensures klass == ClassFor(definition)
  {
    var es := definition.elements;
    var attributes: seq<Stmt> := [];
    var j := 0;
    while j < |es|
      invariant 0 <= j <= |es|
      invariant attributes == ClassProperties(es[..j])
    {
      ClassPropertiesSnoc(es, j);
      attributes := attributes + MakeAnnotatedNode(es[j].1, Property);
      j := j + 1;
    }
    TakeAll(es);
    klass := ClassDef(
      definition.id,
      [Name("TypedDict")],
      [ExprStmt(Str(definition.docstring))] + attributes,
      [],
      [Keyword("total", Name("False"))]);
  }

  /** The body of build_ast's `match` for one definition. */
  method LowerOne(definition: Definition) returns (r: Result<seq<Stmt>>)
    ensures r == LowerDefinition(definition)
  {
    if definition.kind == Some(Resource) || definition.kind == Some(Complex) {
      var klass := BuildClass(definition);
      r := Ok([klass]);
    } else if definition.kind == Some(Primitive) {
      var value := Get(definition.elements, "value");
      if value.None? {
        return Err(KeyError("value"));
      }
      r := Ok(MakeAnnotatedNode(definition.(types := value.value.types), TypeAlias));
    } else {
      r := Ok([]);
    }
  }

  /** build_ast: the statements of every definition, in order. */
  method BuildAst(input: DefinitionStream) returns (r: Result<seq<Stmt>>)
    ensures r == BuildAstSpec(input)
  {
    var typedefinitions: seq<Stmt> := [];
    var i := 0;
    while i < |input.items|
      invariant 0 <= i <= |input.items|
      invariant LowerAll(input.items[..i]) == Ok(typedefinitions)
    {
      LowerAllSnoc(input.items, i);
      var lowered := LowerOne(input.items[i]);
      if lowered.Err? {
        LowerAllStopsAtError(input.items, i + 1);
        return Err(lowered.error);
      }
      typedefinitions := typedefinitions + lowered.value;
      i := i + 1;
    }
    TakeAll(input.items);
    if input.failure.Some? {
      return Err(input.failure.value);
    }
    return Ok(typedefinitions);
  }

  // ---- what build_ast produces ----

  /** The statements one definition contributes when it lowers without error. */
  function StatementCount(d: Definition): nat {
    if IsClassKind(d) then 1
    else if d.kind == Some(Primitive) && Get(d.elements, "value").Some? then
      2 * PropertyCount(Get(d.elements, "value").value)
    else 0
  }

  function TotalStatements(defs: seq<Definition>): nat
    decreases |defs|
  {
    if defs == [] then 0 else TotalStatements(defs[..|defs| - 1]) + StatementCount(defs[|defs| - 1])
  }

  /**
   * build_ast raises exactly when some primitive type has no "value"
   * element, and then raises KeyError('value').
   */
  lemma {:induction false} LowerAllFails(defs: seq<Definition>)
    ensures LowerAll(defs).Err? <==> exists i :: 0 <= i < |defs| && MissingValue(defs[i])
    ensures LowerAll(defs).Err? ==> LowerAll(defs).error == KeyError("value")
    ensures LowerAll(defs).Ok? ==> |LowerAll(defs).value| == TotalStatements(defs)
    decreases |defs|
  {
    if defs != [] {
      var init := defs[..|defs| - 1];
      var d := defs[|defs| - 1];
      TakeSnoc(defs, |defs| - 1);
      TakeAll(defs);
      LowerAllFails(init);
      MissingValueSnoc(init, d);
      assert LowerAll(defs).Err? <==> LowerAll(init).Err? || LowerDefinition(d).Err?;
    }
  }

  /** Some definition misses its value exactly when one before the last does or the last does. */
  lemma MissingValueSnoc(init: seq<Definition>, d: Definition)
    ensures (exists i :: 0 <= i < |init + [d]| && MissingValue((init + [d])[i])) <==>
              (exists i :: 0 <= i < |init| && MissingValue(init[i])) || MissingValue(d)
  {
    var defs := init + [d];
    if exists i :: 0 <= i < |init| && MissingValue(init[i]) {
      var i :| 0 <= i < |init| && MissingValue(init[i]);
      assert defs[i] == init[i];
    }
    if exists i :: 0 <= i < |defs| && MissingValue(defs[i]) {
      var i :| 0 <= i < |defs| && MissingValue(defs[i]);
      if i < |init| {
        assert init[i] == defs[i];
      }
    }
    assert defs[|init|] == d;
  }

  /** The names of the classes among some statements, in order. */
  function ClassNames(stmts: seq<Stmt>): seq<string>
    decreases |stmts|
  {
    if stmts == [] then []
    else if stmts[|stmts| - 1].ClassDef? then ClassNames(stmts[..|stmts| - 1]) + [stmts[|stmts| - 1].name]
    else ClassNames(stmts[..|stmts| - 1])
  }

  /** The type names of the resources and complex types among some definitions, in order. */
  function ClassIds(defs: seq<Definition>): seq<string>
    decreases |defs|
  {
    if defs == [] then []
    else if IsClassKind(defs[|defs| - 1]) then ClassIds(defs[..|defs| - 1]) + [defs[|defs| - 1].id]
    else ClassIds(defs[..|defs| - 1])
  }

  lemma {:induction false} ClassNamesAppend(a: seq<Stmt>, b: seq<Stmt>)
    ensures ClassNames(a + b) == ClassNames(a) + ClassNames(b)
    decreases |b|
  {
    if b == [] {
      assert a + b == a;
    } else {
      var b' := b[..|b| - 1];
      ClassNamesAppend(a, b');
      assert (a + b)[..|a + b| - 1] == a + b';
    }
  }

  lemma {:induction false} NoClassNames(stmts: seq<Stmt>)
    requires forall k :: 0 <= k < |stmts| ==> !stmts[k].ClassDef?
    ensures ClassNames(stmts) == []
    decreases |stmts|
  {
    if stmts != [] {
      NoClassNames(stmts[..|stmts| - 1]);
    }
  }

  /**
   * The module declares one class per resource or complex type, in input
   * order, named after the type; aliases and docstrings declare none.
   */
  lemma {:induction false} LowerAllClassNames(defs: seq<Definition>)
    requires LowerAll(defs).Ok?
    ensures ClassNames(LowerAll(defs).value) == ClassIds(defs)
    decreases |defs|
  {
    if defs != [] {
      var init := defs[..|defs| - 1];
      var d := defs[|defs| - 1];
      LowerAllClassNames(init);
      var last := LowerDefinition(d).value;
      ClassNamesAppend(LowerAll(init).value, last);
      if IsClassKind(d) {
        assert ClassNames(last) == [d.id] by {
          assert last[..0] == [];
        }
      } else if d.kind == Some(Primitive) {
        NoClassNames(last);
      }
    }
  }

  /**
   * build_ast fails exactly when lowering fails or the input raised; a
   * lowering error comes first, since it is raised while the definitions
   * are still being consumed.
   */
  lemma BuildAstOutcome(input: DefinitionStream)
    ensures BuildAstSpec(input).Err? <==>
              (exists i :: 0 <= i < |input.items| && MissingValue(input.items[i])) || input.failure.Some?
    ensures (exists i :: 0 <= i < |input.items| && MissingValue(input.items[i])) ==>
              BuildAstSpec(input) == Err(KeyError("value"))
    ensures (forall i :: 0 <= i < |input.items| ==> !MissingValue(input.items[i])) && input.failure.Some? ==>
              BuildAstSpec(input) == Err(input.failure.value)
    ensures BuildAstSpec(input).Ok? ==>
              && |BuildAstSpec(input).value| == TotalStatements(input.items)
              && ClassNames(BuildAstSpec(input).value) == ClassIds(input.items)
  {
    LowerAllFails(input.items);
    if LowerAll(input.items).Ok? {
      LowerAllClassNames(input.items);
    }
  }
}

=== FILE: bundle.dfy ===
/**
 * The reader (fhir_py_types/reader/bundle.py): from a decoded bundle of
 * StructureDefinition resources to one type tree per resource, rebuilt from
 * the flat, path-qualified `snapshot.element` list.
 *
 * The decoded JSON is modelled by the datatypes below, which hold only the
 * keys the reader consults.
 */
module BundleReader {
  import opened Outcomes
  import opened Text
  import opened FhirTypes
  import opened SeqFacts

  /** One entry of an element's `type` list; a missing `targetProfile` is the empty list. */
  datatype TypeSchema = TypeSchema(code: string, targetProfile: seq<string>)

  /** One entry of `snapshot.element`; `types` is None when the `type` key is absent. */
  datatype ElementSchema = ElementSchema(
    id: string,
    path: string,
    min: int,
    max: string,
    definition: string,
    types: Option<seq<TypeSchema>>)

  /** A bundle entry's `resource`; `snapshot` is None when the key is absent. */
  datatype SchemaResource = SchemaResource(
    resourceType: string,
    kind: string,
    typeName: string,
    snapshot: Option<seq<ElementSchema>>)

  datatype Entry = Entry(resource: Option<SchemaResource>)

  /** A bundle; `entry` is None when the key is absent. */
  datatype Bundle = Bundle(entry: Option<seq<Entry>>)

  /** FHIR_TO_SYSTEM_TYPE_MAP: FHIRPath system types to Python type names. */
  function SystemTypeName(code: string): (r: Option<string>)
    ensures r.Some? ==> r.value == "str" || r.value == "bool" || r.value == "int"
    ensures r.Some? ==> |code| > 7 && code[..7] == "System."
  {
    match code
    case "System.String" => Some("str")
    case "System.Boolean" => Some("bool")
    case "System.Time" => Some("str")
    case "System.Date" => Some("str")
    case "System.DateTime" => Some("str")
    case "System.Decimal" => Some("int")
    case "System.Integer" => Some("int")
    case _ => None
  }

  /** No Python type name of the table is itself a key of the table. */
  lemma SystemTypeNamesAreNotKeys(code: string)
    ensures SystemTypeName(code).Some? ==> SystemTypeName(SystemTypeName(code).value).None?
  {
  }

  // ---- selection ----

  predicate IsStructureDefinition(e: Entry) {
    e.resource.Some? && e.resource.value.resourceType == "StructureDefinition"
  }

  /** The resources of the StructureDefinition entries, in entry order. */
  function SelectFrom(entries: seq<Entry>): (r: seq<SchemaResource>)
    ensures forall x :: x in r ==> x.resourceType == "StructureDefinition" && Entry(Some(x)) in entries
    ensures forall e :: e in entries && IsStructureDefinition(e) ==> e.resource.value in r
    ensures |r| <= |entries|
  {
    if entries == [] then []
    else
      var rest := SelectFrom(entries[1..]);
      assert forall e :: e in entries[1..] ==> e in entries;
      if IsStructureDefinition(entries[0]) then [entries[0].resource.value] + rest else rest
  }

  /** Selection keeps bundle order: selecting from two lists of entries concatenates. */
  lemma {:induction false} SelectFromAppend(a: seq<Entry>, b: seq<Entry>)
    ensures SelectFrom(a + b) == SelectFrom(a) + SelectFrom(b)
  {
    if a == [] {
      assert a + b == b;
    } else {
      assert (a + b)[0] == a[0];
      assert (a + b)[1..] == a[1..] + b;
      SelectFromAppend(a[1..], b);
    }
  }

  /** select_structure_definition_resources; `bundle["entry"]` raises KeyError when absent. */
  function SelectStructureDefinitionResources(b: Bundle): (r: Result<seq<SchemaResource>>)
    ensures r.Err? <==> b.entry.None?
    ensures r.Err? ==> r.error == KeyError("entry")
    ensures r.Ok? ==> forall x :: x in r.value <==> Entry(Some(x)) in b.entry.value && x.resourceType == "StructureDefinition"
    ensures r.Ok? ==> r.value == SelectFrom(b.entry.value)
  {
    match b.entry
    case None => Err(KeyError("entry"))
    case Some(entries) =>
      assert forall x :: IsStructureDefinition(Entry(Some(x))) <==> x.resourceType == "StructureDefinition";
      Ok(SelectFrom(entries))
  }

  // ---- per-element parsing ----

  /**
   * parse_type_identifier: the last '/'-segment of the code, mapped through
   * the system type table when it is a key of it, unchanged otherwise.
   */
  function ParseTypeIdentifier(t: TypeSchema): (r: string)
    ensures '/' !in r
    ensures SystemTypeName(r).None?
    ensures var code := LastSegment(t.code, '/');
            r == SystemTypeName(code).GetOr(code)
  {
    var code := LastSegment(t.code, '/');
    SystemTypeNamesAreNotKeys(code);
    SystemTypeName(code).GetOr(code)
  }

  /** A type name parses to itself: applying the reading twice changes nothing. */
  lemma ParseTypeIdentifierIdempotent(t: TypeSchema)
    ensures var r := ParseTypeIdentifier(t); ParseTypeIdentifier(TypeSchema(r, [])) == r
  {
  }

  /** The check parse_target_profile makes of one profile URL: its last-but-one segment. */
  predicate IsStructureDefinitionUrl(p: string) {
    var segments := Split(p, '/');
    |segments| >= 2 && segments[|segments| - 2] == "StructureDefinition"
  }

  /**
   * The error one rejected profile URL raises: unpacking `split("/")[-2:]`
   * into two names fails when the URL has no '/', otherwise the type check
   * raises for the whole list.
   */
  function ProfileError(p: string, whole: seq<string>): (e: Exception)
    ensures e.NotEnoughValuesToUnpack? ==> e == NotEnoughValuesToUnpack(2, 1) && '/' !in p
    ensures !e.NotEnoughValuesToUnpack? ==> e == UnknownTargetProfile(whole) && '/' in p
  {
    var segments := Split(p, '/');
    if |segments| < 2 then NotEnoughValuesToUnpack(2, |segments|)
    else
      assert segments[0] + ['/'] + Join(segments[1..], '/') == p;
      UnknownTargetProfile(whole)
  }

  /** Scans `ps`, a suffix of `whole`, in order, failing at the first bad profile. */
  function ParseProfiles(ps: seq<string>, whole: seq<string>): (r: Result<seq<string>>)
    ensures r.Ok? <==> forall i :: 0 <= i < |ps| ==> IsStructureDefinitionUrl(ps[i])
    ensures r.Ok? ==> |r.value| == |ps| && forall i :: 0 <= i < |ps| ==> r.value[i] == LastSegment(ps[i], '/')
    ensures r.Err? ==> exists i :: 0 <= i < |ps| && !IsStructureDefinitionUrl(ps[i])
                         && (forall j :: 0 <= j < i ==> IsStructureDefinitionUrl(ps[j]))
                         && r.error == ProfileError(ps[i], whole)
  {
    if ps == [] then Ok([])
    else
      var segments := Split(ps[0], '/');
      if |segments| < 2 then Err(NotEnoughValuesToUnpack(2, |segments|))
      else if segments[|segments| - 2] != "StructureDefinition" then Err(UnknownTargetProfile(whole))
      else
        assert forall i :: 0 <= i < |ps| - 1 ==> ps[1..][i] == ps[i + 1];
        var rest :- ParseProfiles(ps[1..], whole);
        Ok([Last(segments)] + rest)
  }

  /**
   * parse_target_profile: the profile name (last URL segment) of each profile,
   * in order, or a ValueError when some URL does not name a StructureDefinition.
   */
  function ParseTargetProfile(ps: seq<string>): (r: Result<seq<string>>)
    ensures r.Ok? <==> forall i :: 0 <= i < |ps| ==> IsStructureDefinitionUrl(ps[i])
    ensures r.Ok? ==> |r.value| == |ps| && forall i :: 0 <= i < |ps| ==> r.value[i] == LastSegment(ps[i], '/')
  {
    ParseProfiles(ps, ps)
  }

  /**
   * The error is the one the first rejected URL raises. It is the unpacking
   * error exactly when a URL without '/' comes before any URL with another
   * type than StructureDefinition, and otherwise the unknown-target-profile
   * ValueError for the whole list.
   */
  lemma ParseTargetProfileError(ps: seq<string>)
    requires ParseTargetProfile(ps).Err?
    ensures var e := ParseTargetProfile(ps).error;
            exists i :: 0 <= i < |ps| && !IsStructureDefinitionUrl(ps[i])
                        && (forall j :: 0 <= j < i ==> IsStructureDefinitionUrl(ps[j]))
                        && e == ProfileError(ps[i], ps)
    ensures var e := ParseTargetProfile(ps).error;
            e.NotEnoughValuesToUnpack? <==>
              exists k :: 0 <= k < |ps| && '/' !in ps[k] && forall j :: 0 <= j < k ==> IsStructureDefinitionUrl(ps[j])
    ensures var e := ParseTargetProfile(ps).error;
            e.NotEnoughValuesToUnpack? ==> e == NotEnoughValuesToUnpack(2, 1)
    ensures var e := ParseTargetProfile(ps).error;
            !e.NotEnoughValuesToUnpack? ==> e == UnknownTargetProfile(ps)
  {
    var e := ParseTargetProfile(ps).error;
    var i :| 0 <= i < |ps| && !IsStructureDefinitionUrl(ps[i])
             && (forall j :: 0 <= j < i ==> IsStructureDefinitionUrl(ps[j]))
             && e == ProfileError(ps[i], ps);
    if k :| 0 <= k < |ps| && '/' !in ps[k] && forall j :: 0 <= j < k ==> IsStructureDefinitionUrl(ps[j]) {
      SplitWithoutSeparator(ps[k], '/');
      assert !IsStructureDefinitionUrl(ps[k]);
      assert k == i;
    }
  }

  /** A URL ending in `StructureDefinition/<name>` after a '/' (or at the start) is accepted and gives `name`. */
  lemma ProfileUrlAccepted(prefix: string, name: string)
    requires '/' !in name
    requires prefix == [] || Last(prefix) == '/'
    ensures var p := prefix + "StructureDefinition/" + name;
            IsStructureDefinitionUrl(p) && LastSegment(p, '/') == name
  {
    var p := prefix + "StructureDefinition/" + name;
    var tag := "StructureDefinition";
    assert p == prefix + (tag + ['/'] + name);
    SplitEndsWithTwo(prefix, tag, name, '/');
  }

  /** Splitting `prefix + a + sep + b` ends with the pieces `a` and `b`. */
  lemma SplitEndsWithTwo(prefix: string, a: string, b: string, sep: char)
    requires sep !in a && sep !in b
    requires prefix == [] || Last(prefix) == sep
    ensures var pieces := Split(prefix + (a + [sep] + b), sep);
            |pieces| >= 2 && pieces[|pieces| - 2] == a && pieces[|pieces| - 1] == b
  {
    SplitWithoutSeparator(a, sep);
    SplitWithoutSeparator(b, sep);
    SplitAround(a, b, sep);
    if prefix == [] {
      assert prefix + (a + [sep] + b) == a + [sep] + b;
    } else {
      var front := prefix[..|prefix| - 1];
      assert prefix + (a + [sep] + b) == front + [sep] + (a + [sep] + b);
      SplitAround(front, a + [sep] + b, sep);
    }
  }

  /** Conversely, an accepted URL ends in `StructureDefinition/<name>`, after a '/' or at the start. */
  lemma ProfileUrlShape(p: string)
    requires IsStructureDefinitionUrl(p)
    ensures var name := LastSegment(p, '/');
            var tail := "StructureDefinition/" + name;
            EndsWith(p, tail) && (|p| == |tail| || p[|p| - |tail| - 1] == '/')
  {
    var segments := Split(p, '/');
    var n := |segments|;
    var front := segments[..n - 1];
    assert segments == front + [segments[n - 1]];
    JoinSnoc(front, segments[n - 1], '/');
    JoinEndsWithLast(front, '/');
    assert Last(front) == "StructureDefinition";
  }

  lemma {:induction false} JoinSnoc(pieces: seq<string>, x: string, sep: char)
    requires |pieces| >= 1
    ensures Join(pieces + [x], sep) == Join(pieces, sep) + [sep] + x
  {
    if |pieces| > 1 {
      assert (pieces + [x])[1..] == pieces[1..] + [x];
      JoinSnoc(pieces[1..], x, sep);
    }
  }

  /** One PropertyType per type entry, in order, all sharing the element's cardinality flags. */
  function ParseTypes(ts: seq<TypeSchema>, min: int, max: string): (r: Result<seq<PropertyType>>)
    ensures r.Ok? <==> forall i :: 0 <= i < |ts| ==> ParseTargetProfile(ts[i].targetProfile).Ok?
    ensures r.Ok? ==> |r.value| == |ts|
    ensures r.Ok? ==> forall i :: 0 <= i < |ts| ==>
      r.value[i] == PropertyType(
        code := ParseTypeIdentifier(ts[i]),
        required := min != 0,
        isarray := max != "1",
        literal := false,
        targetProfile := Some(ParseTargetProfile(ts[i].targetProfile).value))
    ensures r.Err? ==> exists i :: 0 <= i < |ts| && ParseTargetProfile(ts[i].targetProfile) == Err(r.error)
  {
    if ts == [] then Ok([])
    else
      var profiles :- ParseTargetProfile(ts[0].targetProfile);
      var head := PropertyType(
        code := ParseTypeIdentifier(ts[0]),
        required := min != 0,
        isarray := max != "1",
        targetProfile := Some(profiles));
      var rest :- ParseTypes(ts[1..], min, max);
      Ok([head] + rest)
  }

  /** The error ParseTypes raises is that of the first type entry whose profiles fail. */
  lemma {:induction false} ParseTypesFirstFailure(ts: seq<TypeSchema>, min: int, max: string)
    requires ParseTypes(ts, min, max).Err?
    ensures exists i :: 0 <= i < |ts| && ParseTargetProfile(ts[i].targetProfile) == Err(ParseTypes(ts, min, max).error)
                        && forall j :: 0 <= j < i ==> ParseTargetProfile(ts[j].targetProfile).Ok?
  {
    var i := FirstFailureIndex(ts, min, max);
  }

  /** The index of the first type entry whose profiles fail, with the error ParseTypes raises there. */
  lemma {:induction false} FirstFailureIndex(ts: seq<TypeSchema>, min: int, max: string) returns (i: nat)
    requires ParseTypes(ts, min, max).Err?
    ensures i < |ts| && ParseTargetProfile(ts[i].targetProfile) == Err(ParseTypes(ts, min, max).error)
    ensures forall j :: 0 <= j < i ==> ParseTargetProfile(ts[j].targetProfile).Ok?
    decreases |ts|
  {
    var e := ParseTypes(ts, min, max).error;
    if ParseTargetProfile(ts[0].targetProfile).Err? {
      assert ParseTargetProfile(ts[0].targetProfile) == Err(e);
      i := 0;
    } else {
      ParseTypesTail(ts, min, max);
      var i' := FirstFailureIndex(ts[1..], min, max);
      FirstFailureShift(ts, e, i');
      i := i' + 1;
    }
  }

  /** After an accepted first entry, the error comes from the rest of the list. */
  lemma ParseTypesTail(ts: seq<TypeSchema>, min: int, max: string)
    requires ts != [] && ParseTargetProfile(ts[0].targetProfile).Ok? && ParseTypes(ts, min, max).Err?
    ensures ParseTypes(ts[1..], min, max) == ParseTypes(ts, min, max)
  {
  }

  /** A first failing type entry after an accepted first one is the first failing entry of the whole list. */
  lemma FirstFailureShift(ts: seq<TypeSchema>, e: Exception, i: nat)
    requires ts != [] && ParseTargetProfile(ts[0].targetProfile).Ok?
    requires i < |ts| - 1 && ParseTargetProfile(ts[1..][i].targetProfile) == Err(e)
    requires forall j :: 0 <= j < i ==> ParseTargetProfile(ts[1..][j].targetProfile).Ok?
    ensures ParseTargetProfile(ts[i + 1].targetProfile) == Err(e)
    ensures forall j :: 0 <= j < i + 1 ==> ParseTargetProfile(ts[j].targetProfile).Ok?
  {
    assert forall j :: 1 <= j < |ts| ==> ts[j] == ts[1..][j - 1];
  }

  /**
   * parse_element_type: None exactly when the element has no `type` key;
   * otherwise one PropertyType per type entry, or the first profile error.
   */
  function ParseElementType(e: ElementSchema): (r: Result<Option<seq<PropertyType>>>)
    ensures r == Ok(None) <==> e.types.None?
    ensures r.Ok? && r.value.Some? ==> e.types.Some? && |r.value.value| == |e.types.value|
    ensures r.Ok? && r.value.Some? ==> forall i :: 0 <= i < |r.value.value| ==>
      var t := r.value.value[i];
      t.required == (e.min != 0) && t.isarray == (e.max != "1") && !t.literal &&
      t.code == ParseTypeIdentifier(e.types.value[i]) && t.targetProfile.Some?
    ensures r.Err? <==> e.types.Some? && exists i :: 0 <= i < |e.types.value| && ParseTargetProfile(e.types.value[i].targetProfile).Err?
    ensures r.Ok? && r.value.Some? ==> ParseTypes(e.types.value, e.min, e.max) == Ok(r.value.value)
    ensures r.Err? ==> e.types.Some? && ParseTypes(e.types.value, e.min, e.max) == Err(r.error)
  {
    match e.types
    case None => Ok(None)
    case Some(ts) =>
      var types :- ParseTypes(ts, e.min, e.max);
      Ok(Some(types))
  }

  /**
   * parse_element_id: the last '.'-component of the id, with a trailing
   * choice-of-types marker "[x]" removed. Keywords are only logged.
   */
  function ParseElementId(id: string): (r: string)
    ensures '.' !in r
    ensures EndsWith(id, "[x]") ==> EndsWith(id, r + "[x]")
    ensures !EndsWith(id, "[x]") ==> EndsWith(id, r)
    ensures var n := |r| + (if EndsWith(id, "[x]") then 3 else 0);
            n == |id| || (n < |id| && id[|id| - n - 1] == '.')
  {
    var last := LastSegment(id, '.');
    ChoiceMarkerSurvivesSplit(id);
    RemoveSuffix(last, "[x]")
  }

  /** The last '.'-component ends with "[x]" exactly when the whole id does. */
  lemma ChoiceMarkerSurvivesSplit(id: string)
    ensures EndsWith(LastSegment(id, '.'), "[x]") <==> EndsWith(id, "[x]")
  {
    var last := LastSegment(id, '.');
    if |last| >= 3 {
      assert last[|last| - 3..] == id[|id| - 3..];
    }
  }

  /** `path.split(".")[1:-1]`: the keys to walk from the root to the element's parent. */
  function Walk(path: string): (w: seq<string>)
    ensures forall i :: 0 <= i < |w| ==> '.' !in w[i]
    ensures '.' !in path ==> w == []
    ensures '.' in path ==> Join([Split(path, '.')[0]] + w + [Last(Split(path, '.'))], '.') == path
  {
    var components := Split(path, '.');
    SplitWithoutSeparator(path, '.');
    if |components| >= 2 then
      assert components == [components[0]] + components[1..|components| - 1] + [Last(components)];
      components[1..|components| - 1]
    else []
  }

  /** Where the reader puts an element: its parent's walk, then its own key. */
  function FullPath(e: ElementSchema): seq<string> {
    Walk(e.path) + [ParseElementId(e.id)]
  }

  // ---- the root and the remaining elements ----

  /** `next(e for e in elements if e["id"] == type)`: the first match, or StopIteration. */
  function FindRoot(es: seq<ElementSchema>, typeName: string): (r: Result<ElementSchema>)
    ensures r.Ok? ==> r.value.id == typeName && r.value in es
    ensures r.Ok? ==> exists i :: 0 <= i < |es| && es[i] == r.value && forall j :: 0 <= j < i ==> es[j].id != typeName
    ensures r.Err? <==> forall e :: e in es ==> e.id != typeName
    ensures r.Err? ==> r.error == StopIteration
  {
    if es == [] then Err(StopIteration)
    else if es[0].id == typeName then Ok(es[0])
    else
      assert forall e :: e in es ==> e == es[0] || e in es[1..];
      assert forall i :: 0 <= i < |es| - 1 ==> es[1..][i] == es[i + 1];
      FindRoot(es[1..], typeName)
  }

  /** The elements other than the root entry, in order. */
  function WithoutId(es: seq<ElementSchema>, id: string): (r: seq<ElementSchema>)
    ensures forall e :: e in r <==> e in es && e.id != id
    ensures |r| <= |es|
  {
    if es == [] then []
    else
      var rest := WithoutId(es[1..], id);
      assert forall e :: e in es <==> e == es[0] || e in es[1..];
      if es[0].id != id then [es[0]] + rest else rest
  }

  /** The filter keeps entry order and repeated entries: filtering two runs of entries concatenates. */
  lemma {:induction false} WithoutIdAppend(a: seq<ElementSchema>, b: seq<ElementSchema>, id: string)
    ensures WithoutId(a + b, id) == WithoutId(a, id) + WithoutId(b, id)
  {
    if a == [] {
      assert a + b == b;
    } else {
      assert (a + b)[0] == a[0];
      assert (a + b)[1..] == a[1..] + b;
      WithoutIdAppend(a[1..], b, id);
    }
  }

  // ---- the stable sort by path length ----

  predicate SortedByPathLength(s: seq<ElementSchema>) {
    forall i, j :: 0 <= i < j < |s| ==> |s[i].path| <= |s[j].path|
  }

  /** Puts `e` before the first element whose path is not shorter than its own. */
  function InsertByPathLength(e: ElementSchema, s: seq<ElementSchema>): (r: seq<ElementSchema>)
    ensures multiset(r) == multiset(s) + multiset{e}
  {
    if s == [] || |e.path| <= |s[0].path| then [e] + s
    else
      assert s == [s[0]] + s[1..];
      [s[0]] + InsertByPathLength(e, s[1..])
  }

  lemma {:induction false} InsertKeepsSorted(e: ElementSchema, s: seq<ElementSchema>)
    requires SortedByPathLength(s)
    ensures SortedByPathLength(InsertByPathLength(e, s))
  {
    if s != [] && |e.path| > |s[0].path| {
      var rest := InsertByPathLength(e, s[1..]);
      InsertKeepsSorted(e, s[1..]);
      forall x | x in rest ensures |s[0].path| <= |x.path| {
        assert x in multiset(rest);
        assert x == e || x in multiset(s[1..]);
      }
      SortedCons(s[0], rest);
    }
  }

  /** A sorted list stays sorted behind a head no longer than any of its elements. */
  lemma SortedCons(h: ElementSchema, rest: seq<ElementSchema>)
    requires SortedByPathLength(rest)
    requires forall x :: x in rest ==> |h.path| <= |x.path|
    ensures SortedByPathLength([h] + rest)
  {
    var r := [h] + rest;
    forall i, j | 0 <= i < j < |r| ensures |r[i].path| <= |r[j].path| {
      assert r[j] == rest[j - 1];
      if i > 0 { assert r[i] == rest[i - 1]; }
    }
  }

  /**
   * `sorted(elements, key=lambda e: len(e["path"]))`: ascending path-string
   * length, a permutation of the input.
   */
  function SortByPathLength(es: seq<ElementSchema>): (r: seq<ElementSchema>)
    ensures multiset(r) == multiset(es)
    ensures SortedByPathLength(r)
  {
    if es == [] then []
    else
      assert es == [es[0]] + es[1..];
      InsertKeepsSorted(es[0], SortByPathLength(es[1..]));
      InsertByPathLength(es[0], SortByPathLength(es[1..]))
  }

  /** The elements whose path has length `n`, in order. */
  function WithPathLength(s: seq<ElementSchema>, n: nat): seq<ElementSchema> {
    if s == [] then []
    else (if |s[0].path| == n then [s[0]] else []) + WithPathLength(s[1..], n)
  }

  lemma {:induction false} InsertKeepsOrderOfEqualLengths(e: ElementSchema, s: seq<ElementSchema>, n: nat)
    ensures WithPathLength(InsertByPathLength(e, s), n) ==
            if |e.path| == n then [e] + WithPathLength(s, n) else WithPathLength(s, n)
  {
    if s == [] || |e.path| <= |s[0].path| {
      assert ([e] + s)[1..] == s;
    } else {
      var rest := InsertByPathLength(e, s[1..]);
      assert ([s[0]] + rest)[1..] == rest;
      InsertKeepsOrderOfEqualLengths(e, s[1..], n);
    }
  }

  /** The sort is stable: elements with equal path length keep their input order. */
  lemma {:induction false} SortIsStable(es: seq<ElementSchema>, n: nat)
    ensures WithPathLength(SortByPathLength(es), n) == WithPathLength(es, n)
  {
    if es != [] {
      SortIsStable(es[1..], n);
      InsertKeepsOrderOfEqualLengths(es[0], SortByPathLength(es[1..]), n);
    }
  }

  // ---- building the tree ----

  /**
   * `in_focus.elements[key] = child` after walking `in_focus` down `walk`:
   * KeyError for the first missing component; otherwise the node at `walk`
   * gets `child` under `key`, and the nodes along the way keep their own data
   * and the order of their keys.
   */
  function InsertAt(node: Definition, walk: seq<string>, key: string, child: Definition): (r: Result<Definition>)
    ensures r.Ok? <==> Find(node, walk).Some?
    ensures r.Err? ==> exists i :: 0 <= i < |walk| && r.error == KeyError(walk[i])
    ensures r.Ok? ==> Label(r.value) == Label(node)
    decreases |walk|
  {
    if walk == [] then Ok(node.(elements := Put(node.elements, key, child)))
    else match Get(node.elements, walk[0])
      case None => Err(KeyError(walk[0]))
      case Some(sub) =>
        var sub' :- InsertAt(sub, walk[1..], key, child);
        Ok(node.(elements := Put(node.elements, walk[0], sub')))
  }

  /** The walk extended by one key reaches the child under that key. */
  lemma {:induction false} FindSnoc(d: Definition, p: seq<string>, k: string)
    ensures Find(d, p + [k]) == match Find(d, p)
                                case None => None
                                case Some(n) => Get(n.elements, k)
    decreases |p|
  {
    if p != [] {
      ConsSnoc(p, k);
      match Get(d.elements, p[0])
      case None =>
      case Some(child) => FindSnoc(child, p[1..], k);
    }
  }

  /**
   * When the walk stops at its `j`-th key, the assignment raises KeyError
   * for that key.
   */
  lemma {:induction false} InsertAtMissing(node: Definition, walk: seq<string>, key: string, child: Definition, j: int)
    requires 0 <= j < |walk|
    requires Find(node, walk[..j]).Some?
    requires Get(Find(node, walk[..j]).value.elements, walk[j]).None?
    ensures InsertAt(node, walk, key, child) == Err(KeyError(walk[j]))
    decreases j
  {
    if j > 0 {
      TakeTail(walk, j);
      var sub := Get(node.elements, walk[0]).value;
      InsertAtMissing(sub, walk[1..], key, child, j - 1);
    }
  }

  /** The node the reader makes for a non-root element: no children, no kind. */
  function ElementNode(e: ElementSchema, types: Option<seq<PropertyType>>): Definition {
    Definition(ParseElementId(e.id), e.definition, types, [])
  }

  /**
   * One iteration of the reader's loop: the element's key and types, then
   * the walk to its parent and the assignment there.
   */
  function InsertElement(tree: Definition, e: ElementSchema): (r: Result<Definition>)
    ensures r.Err? <==> ParseElementType(e).Err? || Find(tree, Walk(e.path)).None?
    ensures r.Err? && ParseElementType(e).Ok? ==> exists i :: 0 <= i < |Walk(e.path)| && r.error == KeyError(Walk(e.path)[i])
    ensures ParseElementType(e).Err? ==> r == Err(ParseElementType(e).error)
    ensures r.Ok? ==> Label(r.value) == Label(tree)
  {
    var types :- ParseElementType(e);
    InsertAt(tree, Walk(e.path), ParseElementId(e.id), ElementNode(e, types))
  }

  /** The reader's loop over `sorted`, from `tree`, stopping at the first exception. */
  function InsertAll(tree: Definition, sorted: seq<ElementSchema>): (r: Result<Definition>)
    ensures r.Ok? ==> Label(r.value) == Label(tree)
    decreases |sorted|
  {
    if sorted == [] then Ok(tree)
    else
      var next :- InsertElement(tree, sorted[0]);
      InsertAll(next, sorted[1..])
  }

  /** The loop over two runs of elements is the loop over the first, continued over the second. */
  lemma {:induction false} InsertAllAppend(tree: Definition, a: seq<ElementSchema>, b: seq<ElementSchema>)
    ensures InsertAll(tree, a + b) == match InsertAll(tree, a)
                                      case Err(e) => Err(e)
                                      case Ok(t) => InsertAll(t, b)
    decreases |a|
  {
    if a == [] {
      assert a + b == b;
    } else {
      assert (a + b)[0] == a[0];
      assert (a + b)[1..] == a[1..] + b;
      match InsertElement(tree, a[0])
      case Err(_) =>
      case Ok(next) => InsertAllAppend(next, a[1..], b);
    }
  }

  /** The root node, built from the entry whose id is the resource's type, before any child. */
  function RootNode(root: ElementSchema, kind: Kind, types: Option<seq<PropertyType>>): Definition {
    Definition(root.id, root.definition, types, [], Some(kind))
  }

  /** A tree is rooted at a resource when its root is the resource's type, with the resource's kind. */
  predicate RootedAt(d: Definition, resource: SchemaResource) {
    d.id == resource.typeName && d.kind.Some? && KindValue(d.kind.value) == resource.kind
  }

  /** read_structure_definition, as a function of the resource. */
  function ReadSpec(resource: SchemaResource): (r: Result<Definition>)
    ensures r.Ok? ==> RootedAt(r.value, resource)
  {
    match resource.snapshot
    case None => Err(KeyError("snapshot"))
    case Some(elements) =>
      var root :- FindRoot(elements, resource.typeName);
      var kind :- KindFromStr(resource.kind);
      var types :- ParseElementType(root);
      InsertAll(RootNode(root, kind, types), SortByPathLength(WithoutId(elements, root.id)))
  }

  /**
   * read_structure_definition: finds the root entry, builds the root node,
   * then inserts every other element, shortest path first, under the node
   * its path walks to.
   */
  method ReadStructureDefinition(resource: SchemaResource) returns (r: Result<Definition>)
    ensures r == ReadSpec(resource)
    ensures resource.snapshot.None? ==> r == Err(KeyError("snapshot"))
    ensures resource.snapshot.Some? && (forall e :: e in resource.snapshot.value ==> e.id != resource.typeName)
            ==> r == Err(StopIteration)
    ensures (resource.snapshot.Some? && FindRoot(resource.snapshot.value, resource.typeName).Ok?
             && KindFromStr(resource.kind).Err?) ==> r == Err(UnknownKind(resource.kind))
    ensures (resource.snapshot.Some? && FindRoot(resource.snapshot.value, resource.typeName).Ok?
             && KindFromStr(resource.kind).Ok?
             && ParseElementType(FindRoot(resource.snapshot.value, resource.typeName).value).Err?)
            ==> r == Err(ParseElementType(FindRoot(resource.snapshot.value, resource.typeName).value).error)
    ensures r.Ok? ==> r.value.id == resource.typeName && r.value.kind.Some?
                      && KindValue(r.value.kind.value) == resource.kind
  {
    if resource.snapshot.None? {
      return Err(KeyError("snapshot"));
    }
    var elements := resource.snapshot.value;
    var found := FindRoot(elements, resource.typeName);
    if found.Err? {
      return Err(found.error);
    }
    var root := found.value;
    var kind := KindFromStr(resource.kind);
    if kind.Err? {
      return Err(kind.error);
    }
    var rootTypes := ParseElementType(root);
    if rootTypes.Err? {
      return Err(rootTypes.error);
    }
    var tree := RootNode(root, kind.value, rootTypes.value);
    ghost var start := tree;
    var sorted := SortByPathLength(WithoutId(elements, root.id));
    var i := 0;
    while i < |sorted|
      invariant 0 <= i <= |sorted|
      invariant InsertAll(start, sorted) == InsertAll(tree, sorted[i..])
      invariant Label(tree) == Label(start)
    {
      var element := sorted[i];
      var key := ParseElementId(element.id);
      var types := ParseElementType(element);
      if types.Err? {
        return Err(types.error);
      }
      var child := ElementNode(element, types.value);
      // in_focus descends one key at a time; a missing key raises KeyError
      var walk := Walk(element.path);
      var focus := tree;
      var j := 0;
      while j < |walk|
        invariant 0 <= j <= |walk|
        invariant Find(tree, walk[..j]) == Some(focus)
      {
        var next := Get(focus.elements, walk[j]);
        if next.None? {
          InsertAtMissing(tree, walk, key, child, j);
          return Err(KeyError(walk[j]));
        }
        FindSnoc(tree, walk[..j], walk[j]);
        TakeSnoc(walk, j);
        focus := next.value;
        j := j + 1;
      }
      TakeAll(walk);
      // in_focus.elements[element_id] = element_definition
      assert sorted[i..][1..] == sorted[i + 1..];
      tree := InsertAt(tree, walk, key, child).value;
      i := i + 1;
    }
    r := Ok(tree);
  }

  /**
   * The exception a consumer of read_structure_definitions sees when reading
   * a resource raises `e`: a StopIteration escaping the generator expression
   * becomes a RuntimeError.
   */
  function Reraised(e: Exception): (r: Exception)
    ensures r != StopIteration
    ensures e == StopIteration ==> r == GeneratorRaisedStopIteration
    ensures e != StopIteration ==> r == e
  {
    if e == StopIteration then GeneratorRaisedStopIteration else e
  }

  /**
   * The generator `(read_structure_definition(d) for d in resources)`, run to
   * its end: it yields each resource's tree in order and stops at the first
   * resource that raises.
   */
  function ReadEach(resources: seq<SchemaResource>): (s: DefinitionStream)
    ensures |s.items| <= |resources|
    ensures forall i :: 0 <= i < |s.items| ==> ReadSpec(resources[i]) == Ok(s.items[i])
    ensures s.failure.None? <==> |s.items| == |resources|
    ensures s.failure.Some? ==>
              && ReadSpec(resources[|s.items|]).Err?
              && s.failure.value == Reraised(ReadSpec(resources[|s.items|]).error)
  {
    if resources == [] then DefinitionStream([], None)
    else match ReadSpec(resources[0])
      case Err(e) => DefinitionStream([], Some(Reraised(e)))
      case Ok(d) =>
        var rest := ReadEach(resources[1..]);
        ReadEachStep(resources, d, rest);
        DefinitionStream([d] + rest.items, rest.failure)
  }

  /** What ReadEach promises about the stream `s` it makes of `resources`. */
  predicate StreamOf(resources: seq<SchemaResource>, s: DefinitionStream) {
    && |s.items| <= |resources|
    && (forall i :: 0 <= i < |s.items| ==> ReadSpec(resources[i]) == Ok(s.items[i]))
    && (s.failure.None? <==> |s.items| == |resources|)
    && (s.failure.Some? ==>
          && ReadSpec(resources[|s.items|]).Err?
          && s.failure.value == Reraised(ReadSpec(resources[|s.items|]).error))
  }

  /** A resource that reads, in front of the stream of the rest, gives the stream of all of them. */
  lemma ReadEachStep(resources: seq<SchemaResource>, d: Definition, rest: DefinitionStream)
    requires resources != [] && ReadSpec(resources[0]) == Ok(d)
    requires StreamOf(resources[1..], rest)
    ensures StreamOf(resources, DefinitionStream([d] + rest.items, rest.failure))
  {
    var s := DefinitionStream([d] + rest.items, rest.failure);
    forall i | 0 <= i < |s.items|
      ensures ReadSpec(resources[i]) == Ok(s.items[i])
    {
      if i > 0 {
        assert s.items[i] == rest.items[i - 1] && resources[i] == resources[1..][i - 1];
      }
    }
    if s.failure.Some? {
      assert resources[|s.items|] == resources[1..][|rest.items|];
    }
  }

  /**
   * read_structure_definitions: the missing "entry" key raises at once (the
   * outermost iterable of a generator expression is evaluated eagerly);
   * everything else happens as the stream is consumed.
   */
  function ReadStructureDefinitions(b: Bundle): (r: Result<DefinitionStream>)
    ensures r.Err? <==> b.entry.None?
    ensures r.Err? ==> r.error == KeyError("entry")
    ensures r.Ok? ==> r.value == ReadEach(SelectStructureDefinitionResources(b).value)
  {
    var selected :- SelectStructureDefinitionResources(b);
    Ok(ReadEach(selected))
  }

  /** Every tree the stream yields is rooted at its resource's type, with that resource's kind. */
  lemma ReadEachRoots(resources: seq<SchemaResource>)
    ensures var s := ReadEach(resources);
            forall i :: 0 <= i < |s.items| ==>
              && s.items[i].id == resources[i].typeName
              && s.items[i].kind.Some?
              && KindValue(s.items[i].kind.value) == resources[i].kind
  {
    var s := ReadEach(resources);
    forall i | 0 <= i < |s.items|
      ensures s.items[i].id == resources[i].typeName
    {
      assert ReadSpec(resources[i]) == Ok(s.items[i]);
    }
  }
}

=== FILE: outcomes.dfy ===
/**
 * The Python exceptions that the reader and the code generator can raise,
 * a failure-compatible Result that carries either a value or one of them,
 * and Option for the places where Python uses None.
 */
module Outcomes {

  datatype Option<+T> = None | Some(value: T) {

    /** Python's `x or default` for a value that is either None or a list */
    function GetOr(default: T): T {
      match this
      case Some(v) => v
      case None => default
    }
  }

  datatype Exception =
    /** ValueError raised by StructureDefinitionKind.from_str for an unknown kind string */
    | UnknownKind(kind: string)
    /** ValueError raised by parse_target_profile when a profile is not a StructureDefinition URL */
    | UnknownTargetProfile(profiles: seq<string>)
    /**
     * ValueError raised when a sequence is unpacked into more names than it
     * has values: "not enough values to unpack (expected 2, got 1)"
     */
    | NotEnoughValuesToUnpack(expected: nat, got: nat)
    /** KeyError raised by a dictionary lookup of a missing key */
    | KeyError(key: string)
    /** StopIteration raised by next() on an exhausted generator */
    | StopIteration
    /**
     * RuntimeError that replaces a StopIteration escaping from a generator's
     * body (PEP 479)
     */
    | GeneratorRaisedStopIteration

  datatype Result<+T> = Ok(value: T) | Err(error: Exception) {

    predicate IsFailure() {
      Err?
    }

    function PropagateFailure<U>(): Result<U>
      requires Err?
    {
      Err(error)
    }

    function Extract(): T
      requires Ok?
    {
      value
    }
  }
}

=== FILE: reconstruct.dfy ===
/**
 * What the reader's insertion loop (fhir_py_types/reader/bundle.py, lines
 * 90-102) guarantees about the tree it builds: an assignment under a walked
 * path changes nothing outside that path, every dictionary keeps distinct
 * keys, and, when every element's parent element has a shorter path, the
 * tree holds exactly one node per element, at the element's own path.
 */
module TreeReconstruction {
  import opened Outcomes
  import opened Text
  import opened FhirTypes
  import opened BundleReader
  import opened SeqFacts

  // ---- what one assignment changes ----

  /** A node without children has no descendant. */
  lemma FindInLeaf(d: Definition, p: seq<string>)
    requires d.elements == []
    ensures Find(d, p).Some? <==> p == []
  {
  }

  /** If a path leads somewhere, so does each of its prefixes. */
  lemma {:induction false} FindPrefixClosed(d: Definition, p: seq<string>, q: seq<string>)
    requires q <= p
    requires Find(d, p).Some?
    ensures Find(d, q).Some?
    decreases |p|
  {
    if q != [] {
      var child := Get(d.elements, p[0]).value;
      FindPrefixClosed(child, p[1..], q[1..]);
    }
  }

  /** `p` starts with `walk + [key]`, stated key by key. */
  predicate Below<T(==)>(walk: seq<T>, key: T, p: seq<T>)
    decreases |walk|
  {
    && p != []
    && (if walk == [] then p[0] == key else p[0] == walk[0] && Below(walk[1..], key, p[1..]))
  }

  lemma {:induction false} BelowIsPrefix<T>(walk: seq<T>, key: T, p: seq<T>)
    ensures Below(walk, key, p) <==> walk + [key] <= p
    decreases |walk|
  {
    if walk == [] {
      assert walk + [key] == [key];
    } else {
      assert walk + [key] == [walk[0]] + (walk[1..] + [key]);
      if p != [] {
        BelowIsPrefix(walk[1..], key, p[1..]);
        if p[0] == walk[0] && walk[1..] + [key] <= p[1..] {
          assert p == [p[0]] + p[1..];
        }
      }
    }
  }

  /** One assignment `node.elements[k] = v`, seen from a path below `node`. */
  lemma FindAfterPut(node: Definition, k: string, v: Definition, p: seq<string>)
    requires p != []
    ensures Find(node.(elements := Put(node.elements, k, v)), p)
            == if p[0] == k then Find(v, p[1..]) else Find(node, p)
  {
    GetAfterPut(node.elements, k, v, p[0]);
  }

  /** One step of the walk: the assignment happens inside the first key's child. */
  lemma InsertAtStep(node: Definition, walk: seq<string>, key: string, child: Definition)
    requires InsertAt(node, walk, key, child).Ok?
    requires walk != []
    ensures var sub := Get(node.elements, walk[0]);
            && sub.Some?
            && InsertAt(sub.value, walk[1..], key, child).Ok?
            && InsertAt(node, walk, key, child).value
               == node.(elements := Put(node.elements, walk[0], InsertAt(sub.value, walk[1..], key, child).value))
  {
  }

  /** After `in_focus.elements[key] = child` at `walk`, below `walk + [key]` is the child's subtree. */
  lemma {:induction false} InsertAtBelow(
    node: Definition, walk: seq<string>, key: string, child: Definition, q: seq<string>)
    requires InsertAt(node, walk, key, child).Ok?
    ensures Find(InsertAt(node, walk, key, child).value, walk + [key] + q) == Find(child, q)
    decreases |walk|
  {
    var p := walk + [key] + q;
    if walk == [] {
      ConsSplit([key], key, q);
      FindAfterPut(node, key, child, p);
    } else {
      var sub := Get(node.elements, walk[0]).value;
      InsertAtStep(node, walk, key, child);
      var sub' := InsertAt(sub, walk[1..], key, child).value;
      ConsSplit(walk, key, q);
      FindAfterPut(node, walk[0], sub', p);
      InsertAtBelow(sub, walk[1..], key, child, q);
    }
  }

  /**
   * After `in_focus.elements[key] = child` at `walk`, every path not below
   * `walk + [key]` leads to a node exactly when it did before, and that node
   * carries the same data.
   */
  lemma {:induction false} InsertAtElsewhere(
    node: Definition, walk: seq<string>, key: string, child: Definition, p: seq<string>)
    requires InsertAt(node, walk, key, child).Ok?
    requires !Below(walk, key, p)
    ensures Find(InsertAt(node, walk, key, child).value, p).Some? <==> Find(node, p).Some?
    ensures Find(node, p).Some? ==>
              Label(Find(InsertAt(node, walk, key, child).value, p).value) == Label(Find(node, p).value)
    decreases |walk|
  {
    if p != [] {
      if walk == [] {
        FindAfterPut(node, key, child, p);
      } else {
        var sub := Get(node.elements, walk[0]).value;
        InsertAtStep(node, walk, key, child);
        var sub' := InsertAt(sub, walk[1..], key, child).value;
        FindAfterPut(node, walk[0], sub', p);
        if p[0] == walk[0] {
          InsertAtElsewhere(sub, walk[1..], key, child, p[1..]);
        }
      }
    }
  }

  // ---- every dictionary keeps distinct keys ----

  lemma PutKeepsWellFormed(es: seq<(string, Definition)>, k: string, v: Definition)
    requires UniqueKeys(es) && WellFormed(v)
    requires forall i :: 0 <= i < |es| ==> WellFormed(es[i].1)
    ensures var r := Put(es, k, v);
            UniqueKeys(r) && forall i :: 0 <= i < |r| ==> WellFormed(r[i].1)
  {
    var r := Put(es, k, v);
    PutKeepsUniqueKeys(es, k, v);
    forall i | 0 <= i < |r| ensures WellFormed(r[i].1) {
      PutAddsOnly(es, k, v, r[i]);
      if r[i] != (k, v) {
        var j :| 0 <= j < |es| && es[j] == r[i];
      }
    }
  }

  lemma {:induction false} InsertAtKeepsWellFormed(node: Definition, walk: seq<string>, key: string, child: Definition)
    requires WellFormed(node) && WellFormed(child)
    requires InsertAt(node, walk, key, child).Ok?
    ensures WellFormed(InsertAt(node, walk, key, child).value)
    decreases |walk|
  {
    if walk == [] {
      PutKeepsWellFormed(node.elements, key, child);
    } else {
      var sub := Get(node.elements, walk[0]).value;
      var j :| 0 <= j < |node.elements| && node.elements[j] == (walk[0], sub);
      InsertAtKeepsWellFormed(sub, walk[1..], key, child);
      var sub' := InsertAt(sub, walk[1..], key, child).value;
      PutKeepsWellFormed(node.elements, walk[0], sub');
    }
  }

  lemma {:induction false} InsertAllKeepsWellFormed(tree: Definition, sorted: seq<ElementSchema>)
    requires WellFormed(tree)
    requires InsertAll(tree, sorted).Ok?
    ensures WellFormed(InsertAll(tree, sorted).value)
    decreases |sorted|
  {
    if sorted != [] {
      var e := sorted[0];
      var types := ParseElementType(e).value;
      InsertAtKeepsWellFormed(tree, Walk(e.path), ParseElementId(e.id), ElementNode(e, types));
      InsertAllKeepsWellFormed(InsertElement(tree, e).value, sorted[1..]);
    }
  }

  /** Every tree the reader returns is made of dictionaries with distinct keys. */
  lemma ReadBuildsDictionaries(resource: SchemaResource)
    requires ReadSpec(resource).Ok?
    ensures WellFormed(ReadSpec(resource).value)
  {
    var elements := resource.snapshot.value;
    var root := FindRoot(elements, resource.typeName).value;
    var kind := KindFromStr(resource.kind).value;
    var types := ParseElementType(root).value;
    InsertAllKeepsWellFormed(RootNode(root, kind, types), SortByPathLength(WithoutId(elements, root.id)));
  }

  // ---- one new node under a node that is there ----

  /** `tree` has a node at each non-empty path of `paths` and nowhere else below the root. */
  ghost predicate HasExactly(tree: Definition, paths: set<seq<string>>) {
    forall p :: p != [] ==> (Find(tree, p).Some? <==> p in paths)
  }

  /**
   * Assigning a childless node under an existing parent, at a key that is
   * not there yet, adds exactly one path and leaves the node at every
   * other path as it was.
   */
  lemma InsertNewLeaf(tree: Definition, paths: set<seq<string>>, w: seq<string>, k: string, c: Definition)
    requires HasExactly(tree, paths) && [] !in paths
    requires c.elements == []
    requires w + [k] !in paths
    requires w == [] || w in paths
    ensures InsertAt(tree, w, k, c).Ok?
    ensures var t := InsertAt(tree, w, k, c).value;
            && HasExactly(t, paths + {w + [k]})
            && Find(t, w + [k]) == Some(c)
            && forall p :: p in paths ==> Label(Find(t, p).value) == Label(Find(tree, p).value)
  {
    var full := w + [k];
    assert Find(tree, w).Some?;
    var t := InsertAt(tree, w, k, c).value;
    // no path of the tree lies below the new one
    forall p | p in paths ensures !Below(w, k, p) {
      BelowIsPrefix(w, k, p);
      if full <= p {
        FindPrefixClosed(tree, p, full);
      }
    }
    forall p | p != [] ensures Find(t, p).Some? <==> p in paths + {full} {
      BelowIsPrefix(w, k, p);
      if Below(w, k, p) {
        PrefixSplit(full, p);
        InsertAtBelow(tree, w, k, c, p[|full|..]);
        FindInLeaf(c, p[|full|..]);
        EmptySuffix(full, p);
      } else {
        InsertAtElsewhere(tree, w, k, c, p);
        if p == full { BelowIsPrefix(w, k, full); }
      }
    }
    InsertAtBelow(tree, w, k, c, []);
    assert full + [] == full;
    forall p | p in paths ensures Label(Find(t, p).value) == Label(Find(tree, p).value) {
      InsertAtElsewhere(tree, w, k, c, p);
    }
  }

  // ---- the whole loop ----

  ghost function Paths(done: seq<ElementSchema>): set<seq<string>> {
    Image(done, FullPath)
  }

  /**
   * `tree` holds exactly the elements of `done`: a non-empty path leads to
   * a node exactly when it is some element's path, and there the node
   * carries that element's key, docstring and types.
   */
  ghost predicate Holds(tree: Definition, done: seq<ElementSchema>) {
    && HasExactly(tree, Paths(done))
    && (forall e :: e in done ==> Placed(tree, e))
  }

  /** The node at the element's path carries the element's key, docstring and types. */
  ghost predicate Placed(tree: Definition, e: ElementSchema) {
    && ParseElementType(e).Ok?
    && Find(tree, FullPath(e)).Some?
    && Label(Find(tree, FullPath(e)).value) == ElementNode(e, ParseElementType(e).value)
  }

  lemma InsertElementStep(tree: Definition, done: seq<ElementSchema>, e: ElementSchema)
    requires Holds(tree, done)
    requires ParseElementType(e).Ok?
    requires FullPath(e) !in Paths(done)
    requires Walk(e.path) == [] || Walk(e.path) in Paths(done)
    ensures InsertElement(tree, e).Ok?
    ensures Holds(InsertElement(tree, e).value, done + [e])
  {
    var w, k := Walk(e.path), ParseElementId(e.id);
    var c := ElementNode(e, ParseElementType(e).value);
    var full := FullPath(e);
    var paths := Paths(done);
    assert full == w + [k];
    assert [] !in paths;
    InsertNewLeaf(tree, paths, w, k, c);
    var t := InsertElement(tree, e).value;
    assert t == InsertAt(tree, w, k, c).value;
    ImageSnoc(done, e, FullPath);
    assert Placed(t, e);
    KeepsPlaced(tree, t, done, e);
  }

  /** Elements placed before an assignment that kept the data at their paths stay placed. */
  lemma KeepsPlaced(tree: Definition, t: Definition, done: seq<ElementSchema>, e: ElementSchema)
    requires forall e' :: e' in done ==> Placed(tree, e')
    requires forall p :: p in Paths(done) ==>
               && Find(tree, p).Some? && Find(t, p).Some?
               && Label(Find(t, p).value) == Label(Find(tree, p).value)
    requires Placed(t, e)
    ensures forall e' :: e' in done + [e] ==> Placed(t, e')
  {
    forall e' | e' in done + [e] ensures Placed(t, e') {
      if e' != e {
        assert e' in done && Placed(tree, e');
        ImageHas(done, e', FullPath);
      }
    }
  }

  /** No two elements are put at the same path. */
  ghost predicate DistinctFullPaths(s: seq<ElementSchema>) {
    DistinctBy(s, FullPath)
  }

  /** Every element's parent path is the path of an element that comes earlier. */
  ghost predicate ParentsFirst(s: seq<ElementSchema>) {
    ParentsBefore(s, FullPath, ParentPath)
  }

  /** The walk of an element below the top level: the path of its parent element. */
  function ParentPath(e: ElementSchema): Option<seq<string>> {
    var w := Walk(e.path);
    if w == [] then None else Some(w)
  }

  function PathLength(e: ElementSchema): int {
    |e.path|
  }

  lemma {:induction false} InsertAllBuilds(tree: Definition, done: seq<ElementSchema>, rest: seq<ElementSchema>)
    requires Holds(tree, done)
    requires forall e :: e in rest ==> ParseElementType(e).Ok?
    requires DistinctFullPaths(done + rest)
    requires ParentsFirst(done + rest)
    ensures InsertAll(tree, rest).Ok?
    ensures Holds(InsertAll(tree, rest).value, done + rest)
    decreases |rest|
  {
    if rest == [] {
      assert done + rest == done;
    } else {
      var e := rest[0];
      FreshImage(done, rest, FullPath);
      ParentDone(done, rest);
      InsertElementStep(tree, done, e);
      SnocAppend(done, e, rest);
      InsertAllBuilds(InsertElement(tree, e).value, done + [e], rest[1..]);
    }
  }

  lemma ParentDone(done: seq<ElementSchema>, rest: seq<ElementSchema>)
    requires rest != []
    requires ParentsFirst(done + rest)
    ensures Walk(rest[0].path) == [] || Walk(rest[0].path) in Paths(done)
  {
    ParentInImage(done, rest, FullPath, ParentPath);
  }

  // ---- the sort puts parents first ----

  /**
   * The reader's precondition for a well-formed snapshot: each element below
   * the top level has a parent element, at the path it walks to, whose path
   * string is shorter.
   */
  ghost predicate ParentsClosed(es: seq<ElementSchema>) {
    forall e :: e in es && Walk(e.path) != [] ==>
      exists q :: q in es && FullPath(q) == Walk(e.path) && |q.path| < |e.path|
  }

  lemma SortPutsParentsFirst(es: seq<ElementSchema>)
    requires ParentsClosed(es)
    ensures ParentsFirst(SortByPathLength(es))
  {
    var s := SortByPathLength(es);
    assert SortedBy(s, PathLength);
    forall e | e in es && ParentPath(e).Some?
      ensures exists q :: q in es && FullPath(q) == ParentPath(e).value && PathLength(q) < PathLength(e)
    {
      var q :| q in es && FullPath(q) == Walk(e.path) && |q.path| < |e.path|;
    }
    SortedPutsParentsBefore(es, s, FullPath, ParentPath, PathLength);
  }

  // ---- the theorem ----

  /**
   * Tree reconstruction: when the root entry is there, the kind is known,
   * every profile is a StructureDefinition URL, no two elements share a
   * path, and every element's parent element has a shorter path, the reader
   * succeeds; the root node describes the root entry; each other element
   * sits at its own path with its key, docstring and types; and nothing else
   * is in the tree.
   */
  lemma ReadRebuildsTree(resource: SchemaResource)
    requires resource.snapshot.Some?
    requires FindRoot(resource.snapshot.value, resource.typeName).Ok?
    requires KindFromStr(resource.kind).Ok?
    requires ParseElementType(FindRoot(resource.snapshot.value, resource.typeName).value).Ok?
    requires forall e :: e in WithoutId(resource.snapshot.value, resource.typeName) ==> ParseElementType(e).Ok?
    requires DistinctFullPaths(WithoutId(resource.snapshot.value, resource.typeName))
    requires ParentsClosed(WithoutId(resource.snapshot.value, resource.typeName))
    ensures ReadSpec(resource).Ok?
    ensures var tree := ReadSpec(resource).value;
            var root := FindRoot(resource.snapshot.value, resource.typeName).value;
            && Label(tree) == RootNode(root, KindFromStr(resource.kind).value, ParseElementType(root).value)
            && (forall e :: e in WithoutId(resource.snapshot.value, resource.typeName) ==>
                  && Find(tree, FullPath(e)).Some?
                  && Label(Find(tree, FullPath(e)).value) == ElementNode(e, ParseElementType(e).value))
            && (forall p :: p != [] && Find(tree, p).Some? ==>
                  exists e :: e in WithoutId(resource.snapshot.value, resource.typeName) && FullPath(e) == p)
  {
    var elements := resource.snapshot.value;
    var root := FindRoot(elements, resource.typeName).value;
    var start := RootNode(root, KindFromStr(resource.kind).value, ParseElementType(root).value);
    var rest := WithoutId(elements, resource.typeName);
    var sorted := SortByPathLength(rest);
    assert ReadSpec(resource) == InsertAll(start, sorted);
    BuildFromRoot(start, rest);
    MultisetSameMembers(rest, sorted);
    var tree := InsertAll(start, sorted).value;
    forall p | p != [] && Find(tree, p).Some?
      ensures exists e :: e in rest && FullPath(e) == p
    {
      ImageMembers(sorted, p, FullPath);
      var e :| e in sorted && FullPath(e) == p;
    }
  }

  /** The loop, started from a childless root, over the sorted elements. */
  lemma BuildFromRoot(start: Definition, rest: seq<ElementSchema>)
    requires start.elements == []
    requires forall e :: e in rest ==> ParseElementType(e).Ok?
    requires DistinctFullPaths(rest)
    requires ParentsClosed(rest)
    ensures InsertAll(start, SortByPathLength(rest)).Ok?
    ensures Holds(InsertAll(start, SortByPathLength(rest)).value, SortByPathLength(rest))
  {
    var sorted := SortByPathLength(rest);
    MultisetSameMembers(rest, sorted);
    HoldsAtStart(start);
    PermutationKeepsDistinct(rest, sorted, FullPath);
    SortPutsParentsFirst(rest);
    EmptyPrefix(sorted);
    InsertAllBuilds(start, [], sorted);
  }

  /** A childless root holds no element. */
  lemma HoldsAtStart(start: Definition)
    requires start.elements == []
    ensures Holds(start, [])
  {
    forall p | p != [] ensures !Find(start, p).Some? {
      FindInLeaf(start, p);
    }
  }

  // ---- images, orders and parents, stated for any element type ----

  /** The images of the items of `s` under `f`. */
  ghost function Image<T, K>(s: seq<T>, f: T -> K): set<K> {
    set x | x in s :: f(x)
  }

  lemma ImageHas<T, K>(s: seq<T>, x: T, f: T -> K)
    requires x in s
    ensures f(x) in Image(s, f)
  {
  }

  lemma ImageMembers<T, K>(s: seq<T>, y: K, f: T -> K)
    ensures y in Image(s, f) <==> exists x :: x in s && f(x) == y
  {
  }

  lemma ImageSnoc<T, K>(s: seq<T>, x: T, f: T -> K)
    ensures Image(s + [x], f) == Image(s, f) + {f(x)}
  {
    forall y | y in Image(s + [x], f) ensures y in Image(s, f) + {f(x)} {
      var z :| z in s + [x] && f(z) == y;
      if z != x {
        assert z in s;
      }
    }
  }

  /** No two items of `s` have the same image under `f`. */
  ghost predicate DistinctBy<T, K>(s: seq<T>, f: T -> K) {
    forall i, j :: 0 <= i < j < |s| ==> f(s[i]) != f(s[j])
  }

  /** Whenever `parent` names an item's parent, an item earlier in `s` has that image under `f`. */
  ghost predicate ParentsBefore<T, K>(s: seq<T>, f: T -> K, parent: T -> Option<K>) {
    forall i :: 0 <= i < |s| && parent(s[i]).Some? ==>
      exists j :: 0 <= j < i && f(s[j]) == parent(s[i]).value
  }

  ghost predicate SortedBy<T>(s: seq<T>, rank: T -> int) {
    forall i, j :: 0 <= i < j < |s| ==> rank(s[i]) <= rank(s[j])
  }

  lemma ParentInImage<T, K>(done: seq<T>, rest: seq<T>, f: T -> K, parent: T -> Option<K>)
    requires rest != []
    requires ParentsBefore(done + rest, f, parent)
    ensures parent(rest[0]).Some? ==> parent(rest[0]).value in Image(done, f)
  {
    var all := done + rest;
    assert all[|done|] == rest[0];
    if parent(rest[0]).Some? {
      var j :| 0 <= j < |done| && f(all[j]) == parent(rest[0]).value;
      assert all[j] == done[j];
    }
  }

  /**
   * Sorting by rank puts parents first when every item's parent item is
   * present and ranks lower.
   */
  lemma SortedPutsParentsBefore<T, K>(es: seq<T>, s: seq<T>, f: T -> K, parent: T -> Option<K>, rank: T -> int)
    requires multiset(es) == multiset(s)
    requires SortedBy(s, rank)
    requires forall e :: e in es && parent(e).Some? ==>
               exists q :: q in es && f(q) == parent(e).value && rank(q) < rank(e)
    ensures ParentsBefore(s, f, parent)
  {
    MultisetSameMembers(es, s);
    forall i | 0 <= i < |s| && parent(s[i]).Some?
      ensures exists j :: 0 <= j < i && f(s[j]) == parent(s[i]).value
    {
      assert s[i] in es;
      var q :| q in es && f(q) == parent(s[i]).value && rank(q) < rank(s[i]);
      var j :| 0 <= j < |s| && s[j] == q;
      RankOrder(s, rank, i, j);
    }
  }

  lemma RankOrder<T>(s: seq<T>, rank: T -> int, i: int, j: int)
    requires SortedBy(s, rank)
    requires 0 <= i < |s| && 0 <= j < |s|
    requires rank(s[j]) < rank(s[i])
    ensures j < i
  {
  }

  /** With distinct images, the first item after `done` has an image none of `done` has. */
  lemma FreshImage<T, K>(done: seq<T>, rest: seq<T>, f: T -> K)
    requires rest != []
    requires DistinctBy(done + rest, f)
    ensures f(rest[0]) !in Image(done, f)
  {
    var all := done + rest;
    assert all[|done|] == rest[0];
    forall x | x in done ensures f(x) != f(rest[0]) {
      var j :| 0 <= j < |done| && done[j] == x;
      assert all[j] == x;
    }
  }

  lemma RemoveKeepsDistinct<T, K>(a: seq<T>, k: int, f: T -> K)
    requires 0 <= k < |a|
    requires DistinctBy(a, f)
    ensures DistinctBy(a[..k] + a[k + 1..], f)
  {
    var c := a[..k] + a[k + 1..];
    forall i, j | 0 <= i < j < |c| ensures f(c[i]) != f(c[j]) {
      var i' := if i < k then i else i + 1;
      var j' := if j < k then j else j + 1;
      assert c[i] == a[i'] && c[j] == a[j'];
    }
  }

  lemma RemoveMatching<T>(a: seq<T>, b: seq<T>, k: int)
    requires multiset(a) == multiset(b)
    requires b != [] && 0 <= k < |a| && a[k] == b[0]
    ensures multiset(a[..k] + a[k + 1..]) == multiset(b[1..])
  {
    var x := b[0];
    var a' := a[..k] + a[k + 1..];
    assert a == a[..k] + [x] + a[k + 1..];
    assert b == [x] + b[1..];
    assert multiset(a) == multiset(a') + multiset([x]);
    assert multiset(b) == multiset([x]) + multiset(b[1..]);
    forall y ensures multiset(a')[y] == multiset(b[1..])[y] {
      assert multiset(a)[y] == multiset(a')[y] + multiset([x])[y];
      assert multiset(b)[y] == multiset([x])[y] + multiset(b[1..])[y];
    }
  }

  /** Whether images are distinct does not depend on the order of the items. */
  lemma {:induction false} PermutationKeepsDistinct<T, K>(a: seq<T>, b: seq<T>, f: T -> K)
    requires multiset(a) == multiset(b)
    requires DistinctBy(a, f)
    ensures DistinctBy(b, f)
    decreases |b|
  {
    if b != [] {
      var x := b[0];
      assert x in multiset(a);
      var k :| 0 <= k < |a| && a[k] == x;
      var a' := a[..k] + a[k + 1..];
      RemoveMatching(a, b, k);
      RemoveKeepsDistinct(a, k, f);
      PermutationKeepsDistinct(a', b[1..], f);
      forall m | 0 <= m < |a'| ensures f(a'[m]) != f(x) {
        var m' := if m < k then m else m + 1;
        assert a'[m] == a[m'];
      }
      forall i, j | 0 <= i < j < |b| ensures f(b[i]) != f(b[j]) {
        assert b[j] == b[1..][j - 1];
        if i == 0 {
          assert b[j] in multiset(a');
        } else {
          assert b[i] == b[1..][i - 1];
        }
      }
    }
  }
}

=== FILE: seqs.dfy ===
/**
 * Small facts about taking sequences apart, stated for any element type so
 * that the proofs over paths and dictionaries do not have to rediscover
 * them for their concrete sequences.
 */
module SeqFacts {

  lemma ConsSplit<T>(w: seq<T>, k: T, q: seq<T>)
    ensures w != [] ==> (w + [k] + q)[0] == w[0] && (w + [k] + q)[1..] == w[1..] + [k] + q
    ensures w == [] ==> (w + [k] + q)[0] == k && (w + [k] + q)[1..] == q
  {
  }

  lemma ConsSnoc<T>(p: seq<T>, k: T)
    requires p != []
    ensures (p + [k])[0] == p[0] && (p + [k])[1..] == p[1..] + [k]
  {
  }

  lemma TakeSnoc<T>(s: seq<T>, j: int)
    requires 0 <= j < |s|
    ensures s[..j + 1] == s[..j] + [s[j]]
  {
  }

  lemma TakeAll<T>(s: seq<T>)
    ensures s[..|s|] == s
  {
  }

  lemma TakeTail<T>(s: seq<T>, j: int)
    requires 0 < j <= |s|
    ensures s[..j][0] == s[0] && s[..j][1..] == s[1..][..j - 1]
  {
  }

  /** The blocks `f` gives for the elements of `xs`, laid end to end in order. */
  function ConcatMap<T, U>(f: T -> seq<U>, xs: seq<T>): seq<U>
    decreases |xs|
  {
    if xs == [] then [] else ConcatMap(f, xs[..|xs| - 1]) + f(xs[|xs| - 1])
  }

  /** The blocks of two runs of elements are those of the first run, then those of the second. */
  lemma {:induction false} ConcatMapAppend<T, U>(f: T -> seq<U>, a: seq<T>, b: seq<T>)
    ensures ConcatMap(f, a + b) == ConcatMap(f, a) + ConcatMap(f, b)
    decreases |b|
  {
    if b == [] {
      assert a + b == a;
    } else {
      var n := |b| - 1;
      assert (a + b)[..|a + b| - 1] == a + b[..n];
      ConcatMapAppend(f, a, b[..n]);
    }
  }

  /** Reading a sequence made of three parts inside its middle part. */
  lemma IndexMiddle<T>(whole: seq<T>, before: seq<T>, block: seq<T>, after: seq<T>, k: nat)
    requires whole == before + block + after && k < |block|
    ensures |before| + k < |whole| && whole[|before| + k] == block[k]
  {
  }

  lemma EmptyPrefix<T>(s: seq<T>)
    ensures [] + s == s
  {
  }

  lemma PrefixSplit<T>(a: seq<T>, b: seq<T>)
    requires a <= b
    ensures b == a + b[|a|..]
  {
  }

  lemma EmptySuffix<T>(a: seq<T>, b: seq<T>)
    requires a <= b
    ensures b[|a|..] == [] <==> b == a
  {
  }

  lemma SnocAppend<T>(a: seq<T>, x: T, b: seq<T>)
    requires b != [] && b[0] == x
    ensures (a + [x]) + b[1..] == a + b
  {
  }

  lemma MultisetSameMembers<T>(a: seq<T>, b: seq<T>)
    requires multiset(a) == multiset(b)
    ensures forall x :: x in a <==> x in b
  {
    forall x ensures x in a <==> x in b {
      assert x in a <==> x in multiset(a);
      assert x in b <==> x in multiset(b);
    }
  }
}

=== FILE: text.dfy ===
/**
 * The few Python string operations the reader and the code generator use,
 * on strings as sequences of characters: `str.split(sep)` with a one-character
 * separator, `str.removesuffix` and `str.capitalize` (for ASCII letters).
 */
module Text {

  /** Python's `sep.join(pieces)` for a non-empty list of pieces. */
  function Join(pieces: seq<string>, sep: char): string
    requires |pieces| >= 1
  {
    if |pieces| == 1 then pieces[0] else pieces[0] + [sep] + Join(pieces[1..], sep)
  }

  /**
   * Python's `s.split(sep)`: the pieces between separators, empty ones included;
   * there is always at least one piece, and joining them back gives `s`.
   */
  function Split(s: string, sep: char): (pieces: seq<string>)
    ensures |pieces| >= 1
    ensures forall i :: 0 <= i < |pieces| ==> sep !in pieces[i]
    ensures Join(pieces, sep) == s
    decreases |s|
  {
    if s == [] then [[]]
    else
      var rest := Split(s[1..], sep);
      if s[0] == sep then
        assert ([[]] + rest)[1..] == rest;
        [[]] + rest
      else
        var pieces := [[s[0]] + rest[0]] + rest[1..];
        assert pieces[1..] == rest[1..];
        pieces
  }

  function Last<T>(s: seq<T>): T
    requires |s| > 0
  {
    s[|s| - 1]
  }

  /** Python's `s.split(sep)[-1]`: what follows the last separator, or all of `s`. */
  function LastSegment(s: string, sep: char): (r: string)
    ensures sep !in r
    ensures |r| <= |s| && s[|s| - |r|..] == r
    ensures |r| < |s| ==> s[|s| - |r| - 1] == sep
    ensures sep !in s ==> r == s
  {
    var pieces := Split(s, sep);
    JoinEndsWithLast(pieces, sep);
    SplitWithoutSeparator(s, sep);
    Last(pieces)
  }

  lemma {:induction false} JoinEndsWithLast(pieces: seq<string>, sep: char)
    requires |pieces| >= 1
    ensures var j := Join(pieces, sep); var l := Last(pieces);
            |l| <= |j| && j[|j| - |l|..] == l && (|l| < |j| ==> j[|j| - |l| - 1] == sep)
  {
    if |pieces| > 1 {
      JoinEndsWithLast(pieces[1..], sep);
      assert Last(pieces[1..]) == Last(pieces);
    }
  }

  lemma {:induction false} SplitWithoutSeparator(s: string, sep: char)
    ensures sep !in s ==> Split(s, sep) == [s]
    decreases |s|
  {
    if s != [] && sep !in s {
      SplitWithoutSeparator(s[1..], sep);
      assert [s[0]] + s[1..] == s;
    }
  }

  /** Splitting distributes over a separator: the pieces of `a`, then those of `b`. */
  lemma {:induction false} SplitAround(a: string, b: string, sep: char)
    ensures Split(a + [sep] + b, sep) == Split(a, sep) + Split(b, sep)
    decreases |a|
  {
    if a == [] {
      assert [] + [sep] + b == [sep] + b;
      assert ([sep] + b)[1..] == b;
    } else {
      assert (a + [sep] + b)[1..] == a[1..] + [sep] + b;
      SplitAround(a[1..], b, sep);
    }
  }

  /** Splitting undoes joining pieces that hold no separator. */
  lemma {:induction false} SplitJoin(pieces: seq<string>, sep: char)
    requires |pieces| >= 1
    requires forall i :: 0 <= i < |pieces| ==> sep !in pieces[i]
    ensures Split(Join(pieces, sep), sep) == pieces
  {
    SplitWithoutSeparator(pieces[0], sep);
    if |pieces| > 1 {
      SplitJoin(pieces[1..], sep);
      SplitAround(pieces[0], Join(pieces[1..], sep), sep);
      assert [pieces[0]] + pieces[1..] == pieces;
    }
  }

  predicate EndsWith(s: string, suffix: string) {
    |suffix| <= |s| && s[|s| - |suffix|..] == suffix
  }

  /** Python's `s.removesuffix(suffix)`. */
  function RemoveSuffix(s: string, suffix: string): (r: string)
    ensures EndsWith(s, suffix) ==> r + suffix == s
    ensures !EndsWith(s, suffix) ==> r == s
  {
    if EndsWith(s, suffix) then
      assert s[..|s| - |suffix|] + s[|s| - |suffix|..] == s;
      s[..|s| - |suffix|]
    else s
  }

  predicate IsUpper(c: char) { 'A' <= c <= 'Z' }
  predicate IsLower(c: char) { 'a' <= c <= 'z' }

  function ToUpper(c: char): char {
    if IsLower(c) then c - 'a' + 'A' else c
  }

  function ToLower(c: char): char {
    if IsUpper(c) then c - 'A' + 'a' else c
  }

  function LowerChars(s: string): (r: string)
    ensures |r| == |s|
    ensures forall i :: 0 <= i < |s| ==> r[i] == ToLower(s[i])
  {
    if s == [] then [] else [ToLower(s[0])] + LowerChars(s[1..])
  }

  /**
   * Python's `s.capitalize()` on ASCII letters: the first character upper-cased,
   * every other one lower-cased, nothing else changed.
   */
  function Capitalize(s: string): (r: string)
    ensures |r| == |s|
    ensures |s| > 0 ==> !IsLower(r[0]) && ToLower(r[0]) == ToLower(s[0])
    ensures forall i :: 0 < i < |s| ==> !IsUpper(r[i]) && r[i] == ToLower(s[i])
  {
    if s == [] then [] else [ToUpper(s[0])] + LowerChars(s[1..])
  }

  lemma CapitalizeIdempotent(s: string)
    ensures Capitalize(Capitalize(s)) == Capitalize(s)
  {
  }
}

=== FILE: types.dfy ===
/**
 * The type model shared by the reader and the code generator
 * (fhir_py_types/__init__.py): the StructureDefinition kinds, the
 * frozen StructurePropertyType and StructureDefinition records, and the
 * dictionary of child definitions, which keeps insertion order.
 *
 * Python's `dataclasses.replace(d, type=t)` on these frozen records is
 * Dafny's datatype update `d.(types := t)`; default field values are the
 * constructor defaults below.
 */
module FhirTypes {
  import opened Outcomes

  datatype Kind = Primitive | Complex | Capability | Operation | Resource

  /** The enum member's value, the kind string used in StructureDefinition resources. */
  function KindValue(k: Kind): string {
    match k
    case Primitive => "primitive-type"
    case Complex => "complex-type"
    case Capability => "capability"
    case Operation => "operation"
    case Resource => "resource"
  }

  /** StructureDefinitionKind.from_str: the kind whose value is `s`, or a ValueError. */
  function KindFromStr(s: string): (r: Result<Kind>)
    ensures r.Ok? ==> KindValue(r.value) == s
    ensures r.Err? ==> r.error == UnknownKind(s) && forall k: Kind :: KindValue(k) != s
  {
    match s
    case "primitive-type" => Ok(Primitive)
    case "complex-type" => Ok(Complex)
    case "capability" => Ok(Capability)
    case "operation" => Ok(Operation)
    case "resource" => Ok(Resource)
    case _ => Err(UnknownKind(s))
  }

  /** Every kind's value parses back to that kind. */
  lemma KindRoundTrip(k: Kind)
    ensures KindFromStr(KindValue(k)) == Ok(k)
  {
    match k
    case Primitive =>
    case Complex =>
    case Capability =>
    case Operation =>
    case Resource =>
  }

  /** One candidate type of a property (StructurePropertyType). */
  datatype PropertyType = PropertyType(
    code: string,
    required: bool := false,
    isarray: bool := false,
    literal: bool := false,
    targetProfile: Option<seq<string>> := None)

  /**
   * A node of the type tree (StructureDefinition). `types` is None where the
   * schema element had no `type` key. `elements` is a Python dict: an ordered
   * sequence of (key, child) pairs, each key at most once (see UniqueKeys).
   */
  datatype Definition = Definition(
    id: string,
    docstring: string,
    types: Option<seq<PropertyType>>,
    elements: seq<(string, Definition)>,
    kind: Option<Kind> := None)

  /** is_polymorphic: more than one candidate type; the declared type is a list. */
  predicate IsPolymorphic(d: Definition): (r: bool)
    requires d.types.Some?
    ensures r <==> d.types.value != [] && d.types.value[1..] != []
  {
    |d.types.value| > 1
  }

  // ---- the elements dictionary ----

  function Keys(es: seq<(string, Definition)>): (ks: seq<string>)
    ensures |ks| == |es|
    ensures forall i :: 0 <= i < |es| ==> ks[i] == es[i].0
  {
    if es == [] then [] else [es[0].0] + Keys(es[1..])
  }

  predicate NoDuplicates(ks: seq<string>) {
    forall i, j :: 0 <= i < j < |ks| ==> ks[i] != ks[j]
  }

  predicate UniqueKeys(es: seq<(string, Definition)>) {
    NoDuplicates(Keys(es))
  }

  /** `es.get(k)`: the value stored under `k`, if any. */
  function Get(es: seq<(string, Definition)>, k: string): (r: Option<Definition>)
    ensures r.Some? <==> k in Keys(es)
    ensures r.Some? ==> (k, r.value) in es
  {
    if es == [] then None
    else if es[0].0 == k then Some(es[0].1)
    else Get(es[1..], k)
  }

  /**
   * `es[k] = v`: a new key goes to the end; an existing key keeps its
   * position and gets the new value; no other key's value changes.
   */
  function Put(es: seq<(string, Definition)>, k: string, v: Definition): (r: seq<(string, Definition)>)
    ensures Keys(r) == if k in Keys(es) then Keys(es) else Keys(es) + [k]
  {
    if es == [] then [(k, v)]
    else if es[0].0 == k then
      var r := [(k, v)] + es[1..];
      assert r[1..] == es[1..];
      r
    else
      var rest := Put(es[1..], k, v);
      var r := [es[0]] + rest;
      assert r[1..] == rest;
      assert Keys(es) == [es[0].0] + Keys(es[1..]);
      r
  }

  /** A dict never holds a key twice: assignment keeps the keys distinct. */
  lemma PutKeepsUniqueKeys(es: seq<(string, Definition)>, k: string, v: Definition)
    requires UniqueKeys(es)
    ensures UniqueKeys(Put(es, k, v))
  {
    var ks := Keys(es);
    if k !in ks {
      var ks' := ks + [k];
      forall i, j | 0 <= i < j < |ks'| ensures ks'[i] != ks'[j] {
        if j == |ks| {
          assert ks'[i] == ks[i];
        }
      }
    }
  }

  /** After `es[k] = v`, `k` maps to `v` and every other key keeps its value. */
  lemma {:induction false} GetAfterPut(es: seq<(string, Definition)>, k: string, v: Definition, k': string)
    ensures Get(Put(es, k, v), k') == if k' == k then Some(v) else Get(es, k')
  {
    if es != [] {
      var r := Put(es, k, v);
      if es[0].0 == k {
        assert r[0] == (k, v) && r[1..] == es[1..];
      } else {
        GetAfterPut(es[1..], k, v, k');
        assert r[0] == es[0] && r[1..] == Put(es[1..], k, v);
      }
    }
  }

  /** `es[k] = v` brings in no pair other than `(k, v)`. */
  lemma {:induction false} PutAddsOnly(es: seq<(string, Definition)>, k: string, v: Definition, p: (string, Definition))
    requires p in Put(es, k, v)
    ensures p in es || p == (k, v)
  {
    if es != [] {
      var r := Put(es, k, v);
      if es[0].0 == k {
        assert r == [(k, v)] + es[1..];
      } else {
        var rest := Put(es[1..], k, v);
        assert r == [es[0]] + rest;
        if p != es[0] {
          PutAddsOnly(es[1..], k, v, p);
        }
      }
    }
  }

  // ---- the tree ----

  /** The node reached from `d` by following the keys of `path`, if every key is there. */
  function Find(d: Definition, path: seq<string>): Option<Definition>
    decreases |path|
  {
    if path == [] then Some(d)
    else match Get(d.elements, path[0])
      case None => None
      case Some(child) => Find(child, path[1..])
  }

  /** A node without its children: everything a node says about itself. */
  function Label(d: Definition): Definition {
    d.(elements := [])
  }

  /**
   * What a consumer sees when it iterates a generator of definitions: the
   * definitions yielded, in order, and the exception the generator raised
   * after them, if any.
   */
  datatype DefinitionStream = DefinitionStream(items: seq<Definition>, failure: Option<Exception>)

  /** Every dictionary in the tree has distinct keys, as a Python dict does. */
  predicate WellFormed(d: Definition)
    decreases d
  {
    && UniqueKeys(d.elements)
    && forall i :: 0 <= i < |d.elements| ==> WellFormed(d.elements[i].1)
  }
}
